=== FILE: README.md ===
# eth-news core, modelled in Dafny

eth-news is a small Flask service that collects Ethereum news from a fixed
list of RSS/Atom feeds into an SQLite table and serves it, newest first, to an
infinite-scrolling page. This project models the parts of `app.py` that decide
what ends up in the table and what a page request returns:

- **the feed extractor** inside `admin_fetch`: the body is cut at `<item` (or
  `<entry` when there is no `<item`). Each piece is trimmed at its closing tag.
  Title, link and publication time are sliced out with `str.split`, `in` and
  `strip`. Items without a title or a link are dropped (`Feed`, over the string
  operations of `Text` and the first-occurrence lemmas of `Scan`);
- **`as_epoch`**: the date parser is a parameter, and `now` stands in for the
  clock (`Feed.AsEpoch`);
- **`normalize_source`**: the label stored with each row (`SourceLabel`);
- **the `articles` table**: `link` is `UNIQUE`, so a duplicate insert is
  skipped and `added` only counts new rows (`Store`). The loop over the
  configured feeds skips a feed that fails (`Ingest`);
- **`api_articles`**: `limit`/`offset` are parsed with Python's `int()`
  (`Decimal`), clamped, and defaulted. Titles are filtered with SQLite's `LIKE`
  (`Like`). Rows are ordered by `pub_ts` descending and windowed, and
  `next_offset` is returned (`Query`).

`FeedRoundTrip` is a round-trip check of the extractor. It renders posts as an RSS 2.0 or
Atom document and proves that extraction returns exactly those posts, in
order. The channel's or feed's own `<title>` is not returned as an item.

Each foreign call is a parameter:

- the clock becomes `now: int`;
- `parsedate_to_datetime(...).timestamp()` becomes `DateParser`, a partial
  function `string -> Option<int>`;
- `urlparse(link).hostname` becomes `HostParser`, whose result is a host, no
  host, or an exception;
- `requests.get` becomes a `Fetch` value: unreachable, or a response with a
  status and a body.

Behaviours of `app.py` the model keeps:

- `normalize_source` removes every `www.` in the host, wherever it occurs. A
  link with no host gives the empty label; only an exception gives `unknown`.
- Rows with equal `pub_ts` come back in an order SQL leaves open, so the model
  allows every such order. Each request may choose afresh, so paging through
  `next_offset` can repeat a tied row and skip its twin; with distinct
  timestamps consecutive pages tile.
- The title filter is SQLite `LIKE`: `%` and `_` are wildcards in the search
  term, ASCII letters match either case, and both the title and the pattern
  end at their first NUL character, as SQLite reads them as C strings. For a
  term without wildcards or NUL, `LIKE '%q%'` is a case-insensitive substring
  test.
- `int()` skips only Python's whitespace around the number. The ASCII
  separators U+001C to U+001F, which `str.strip` removes, make it fail.
- An `offset` beyond SQLite's 64-bit INTEGER range makes the database driver
  raise `OverflowError`, so the request fails instead of returning a page.

## Model

| member | source | states |
|---|---|---|
| Feed.Segments | app.py:92-95 | when the body holds `<item`, the text before the first `<item` followed by the segments is exactly `split("<item")` of the body: the header is dropped and the rest join back with `<item`; otherwise the same for `<entry`; with neither there are no segments |
| Feed.ItemSegments | app.py:92-95 | a header and pieces joined by `<item`, no part holding `<item`, have exactly those pieces as segments: the header is discarded; a part may end in a cut-off `<ite`, since the `<` of `<item` recurs nowhere in it |
| Feed.EntrySegments | app.py:92-95 | in a body without `<item`, a header and pieces joined by `<entry` (no part holding `<entry`) have exactly those pieces as segments |
| Scan.FirstAfterFree | app.py:92-117 | text without a tag whose `<` recurs nowhere in it, followed by that tag, puts the tag's first occurrence right after the text, whatever follows |
| Feed.ItemBody | app.py:96 | the segment ends just before the first `</item>`; failing that, before the first `</entry>`; failing both, it is the whole piece |
| Feed.ExtractTitle | app.py:98-103 | the title is stripped, and empty when the segment has no `<title` |
| Feed.TitleBetweenTags | app.py:98-103 | the title is the stripped text between the `>` that closes the first `<title...` tag and the next `</title>`; attributes in the tag are skipped |
| Feed.ExtractLink | app.py:105-111 | the link is stripped, and empty when the segment has neither `<link>` nor `href=` |
| Feed.LinkElementWins | app.py:106-107 | a `<link>` element decides the link (its stripped text up to `</link>`) whatever `href=` attributes surround it |
| Feed.LinkFromHref | app.py:108-111 | without `<link>`, the link is the stripped text between the first two double quotes after the first `href=` |
| Feed.LinkFromUnclosedHref | app.py:109-111 | with a single double quote after `href=`, the link runs from it to the end of the segment |
| Feed.HrefWithoutQuote | app.py:109-111 | `href=` with no double quote after it gives an empty link |
| Feed.AsEpoch | app.py:56-62 | the parsed epoch when the date parses, otherwise `now` |
| Feed.ExtractTimestamp | app.py:113-117 | with neither `<pubDate>` nor `<updated>`, or with a parser that never succeeds, the time is `now` |
| Feed.PubDateWins | app.py:114-115 | a `<pubDate>` element decides the time (its stripped text through `as_epoch`) whatever `<updated>` elements the segment holds |
| Feed.UpdatedIsFallback | app.py:116-117 | without `<pubDate>`, an `<updated>` element decides the time |
| Feed.ParseItem | app.py:96-120 | an item is produced exactly when both the extracted title and link are non-empty; it then carries that title and link, stripped, and the time extracted from the same segment |
| Feed.ParseItems | app.py:95-120 | never more items than segments; every item has a title and a link; an item is in the result exactly when some segment parses to it |
| Feed.ExtractItems | app.py:92-120 | never more items than segments; every item has a title and a link; an item is returned exactly when some segment of the body parses to it |
| Feed.ParseItemsAppend | app.py:95-120 | the items of two consecutive runs of segments are those of the first run followed by those of the second, so the items keep the feed's order |
| Feed.ExtractItemsIgnoreClock | app.py:113-120 | which items survive, with their titles and links, depends neither on `now` nor on the date parser |
| FeedRoundTrip.RssRoundTrip | app.py:92-120 | extracting from a rendered RSS document gives back its posts in order, each with its timestamp through `as_epoch`; the channel title is not an item |
| FeedRoundTrip.AtomRoundTrip | app.py:92-120 | the same for a rendered Atom document, whose links are `href` attributes and dates `<updated>` elements |
| FeedRoundTrip.ExpectedAll | app.py:95-120 | the expected items are one per post, position by position |
| SourceLabel.NormalizeSource | app.py:64-69 | a non-empty fallback wins; else an exception gives `unknown`, a missing host the empty label, and a host a label no longer than it |
| SourceLabel.HostLabelDropsEveryWww | app.py:66-67 | without a fallback the label is the host's pieces between every `www.`, joined |
| SourceLabel.PlainHostIsLabel | app.py:66-67 | a host without `www.` is its own label |
| SourceLabel.LeadingWwwDropped | app.py:66-67 | a leading `www.` is removed |
| Text.Split | app.py:92-94 | `split` gives pieces that join back to the text, each but the last ends at the first separator after it, the last holds none, and there is one piece exactly when the separator is absent |
| Text.Before | app.py:96-117 | `split(pat, 1)[0]`: the text before the first `pat`, or the whole text when `pat` is absent |
| Text.After | app.py:96-117 | `split(pat, 1)[1]`: the text after the first `pat`, so that the text is the part before, `pat`, and this part |
| Text.RemoveAllIsJoinOfSplit | app.py:67 | `replace("www.", "")`, a left-to-right scan, equals joining the pieces of `split("www.")` |
| Text.RemoveAll | app.py:67 | `replace(pat, "")` never lengthens the text; Text.RemoveAllIsJoinOfSplit gives its value |
| Text.StripShape | app.py:103 | `strip` returns the middle of the text, with only whitespace before and after it |
| Text.Strip | app.py:103 | `strip()` leaves no whitespace at either end and never lengthens the text; Text.StripShape says what it removes |
| Text.StripIdempotent | app.py:160 | stripping twice is stripping once |
| Store.Insert | app.py:123-131 | a row is added exactly when no stored row has the link, with the next id and the draft's values; otherwise the table is unchanged; the invariant (unique links, growing ids) is kept |
| Store.InsertAll | app.py:123-131 | the run keeps the invariant, only appends, counts exactly the appended rows, and afterwards the stored links are the old ones plus the drafts' |
| Store.InsertAllCountsNewLinks | app.py:123-131 | `added` is the number of distinct draft links the table did not already hold |
| Store.InsertAllFirstWins | app.py:123-131 | every added row carries the values of the first draft with its link; later duplicates change nothing |
| Store.InsertAllKnown | app.py:129-131 | drafts whose links are all stored change nothing and add nothing |
| Store.InsertAllIdempotent | app.py:123-131 | inserting the same drafts again is a no-op |
| Store.UniqueLinksCount | app.py:31 | under the `UNIQUE` constraint there are as many distinct links as rows |
| Ingest.SourceDrafts | app.py:84-122 | an unusable response contributes nothing; otherwise one draft per extracted item, position by position, with the item's title, link and time and the link's source label |
| Ingest.Usable | app.py:85-86 | a feed is parsed only when the request succeeded with status 200 and a non-empty body; Ingest.FailedSourceIsSkipped says the rest are skipped |
| Ingest.SourceOf | app.py:122 | the label of a link without fallback: `unknown` on a parser exception, empty without a host, and no longer than the host otherwise |
| Ingest.ToDraft | app.py:122-126 | the INSERT values of an item with a title and a link are a labelled draft |
| Ingest.FetchSources | app.py:82-134 | the loop over the feeds keeps the table invariant, only appends, and sums the rows it appends |
| Ingest.AdminFetch | app.py:79-138 | `total` is the table's size after the run, which is the size before plus `added` |
| Ingest.FetchSourcesIsOneBatch | app.py:82-134 | feeding the sources one by one equals inserting all their drafts as one batch |
| Ingest.FailedSourceIsSkipped | app.py:82-86 | an unreachable, non-200 or empty feed changes nothing wherever it sits; the later feeds run as if it were absent |
| Ingest.AddedCountsNewLinks | app.py:123-138 | the reported `added` is the number of distinct kept links the table did not hold before the run |
| Ingest.NewRowsAreLabelled | app.py:119-127 | every added row has a non-empty title and link, its link's source label, and the values of the first draft of the run with that link |
| Ingest.RerunAddsNothing | app.py:123-131 | fetching the same feed bodies again, at any time and with any date parser, adds nothing and changes no row |
| Decimal.ParseInt | app.py:152 | `int()` skips only Python whitespace around the number and fails on blank text; a result ends in a digit, and a negative one starts with `-` |
| Decimal.IntStrip | app.py:152 | the text `int()` converts has no skippable whitespace at either end and is no longer than the argument; Decimal.IntStripOfPadded says it removes exactly that whitespace |
| Decimal.ParseNumeral | app.py:152 | the conversion after the whitespace: a result ends in a digit, and a negative one starts with `-` |
| Decimal.ParseShow | app.py:152 | `int(str(n)) == n` within the digit limit |
| Decimal.TooManyDigits | app.py:152 | more than 4300 digits raise `ValueError` |
| Decimal.UnderscoresIgnored | app.py:152 | underscore grouping does not change the value |
| Decimal.IntStripOfPadded | app.py:152 | Python whitespace on either side of a number is skipped, leaving the number itself |
| Decimal.SeparatorRejected | app.py:152 | a number behind U+001C fails to parse, although `strip` would remove that character |
| Like.PercentMatchesAll | app.py:168 | `%` matches every title |
| Like.LiteralPrefix | app.py:168 | a wildcard-free `q%` matches exactly the titles starting with `q`, up to ASCII case |
| Like.LeadingPercent | app.py:168 | `%p` matches exactly when `p` matches some suffix |
| Like.ContainsFilter | app.py:165-168 | `title LIKE '%q%'`, for a `q` without wildcards or NUL, holds exactly when the title's text before any NUL contains `q` up to ASCII case |
| Like.LiteralExact | app.py:168 | a pattern without wildcards matches exactly the texts equal to it up to ASCII case |
| Like.NulTermIsSuffix | app.py:165-168 | when the term holds a NUL, the pattern ends there: the title's text before any NUL must end with the term's text before the NUL, up to ASCII case |
| Like.NulTermMatchesAll | app.py:165-168 | the term made of one NUL matches every title |
| Like.Match | app.py:168 | SQLite's pattern matcher: a non-empty all-`%` pattern matches everything, and a pattern without `%` matches only texts of its length; Like.LiteralExact, Like.LiteralPrefix, Like.LeadingPercent and Like.ContainsFilter give its meaning |
| Like.Like | app.py:165-168 | `title LIKE pattern`: operands without NUL are matched as they stand; Like.NulTermIsSuffix and Like.NulTermMatchesAll say what a NUL does |
| Query.ClampLimit | app.py:151-154 | the limit is in 1..50: a number in range as written, smaller ones 1, larger ones 50, and 20 when absent or unparsable |
| Query.ClampOffset | app.py:155-158 | the offset is the number when non-negative, 0 when negative, absent or unparsable |
| Query.LimitInRange | app.py:152 | a limit written as 1..50 is used as is |
| Query.OffsetAsWritten | app.py:156 | an offset written as a non-negative number within the digit limit becomes that number; the bind can still fail (Query.HugeOffsetFails) |
| Query.SearchTerm | app.py:160 | the search term has no surrounding whitespace |
| Query.Matching | app.py:164-169 | the hits are exactly the rows whose title matches, each as often as in the pool, and nothing else |
| Query.Keeps | app.py:164-169 | the `if q:` branch: an empty term keeps every row, otherwise `title LIKE '%q%'` decides; its meaning is given by Query.EmptyTermKeepsAll, Like.ContainsFilter and Query.NulTermKeepsAll |
| Query.Hits | app.py:164-175 | the rows the request selects from are exactly the stored rows that `Keeps` accepts |
| Query.PageOf | app.py:164-175 | what `ORDER BY pub_ts DESC LIMIT ? OFFSET ?` may return: the window of some newest-first arrangement of the hits, each entry at its timestamp's rank; Query.SortedWindow shows the model's page is one |
| Query.SortNewest | app.py:167 | `ORDER BY pub_ts DESC` gives a newest-first permutation of the hits |
| Query.Window | app.py:167 | `LIMIT/OFFSET` takes the entries from `offset` on, at most `limit` of them |
| Query.ApiArticles | app.py:150-186 | an offset beyond SQLite's INTEGER range fails the request, and only such an offset; otherwise the page has at most `limit` entries, all stored and matching, newest first; each sits at its timestamp's rank among the hits; `next_offset = offset + len(page)` |
| Query.SortedWindow | app.py:164-175 | a window of the sorted hits is a page of some newest-first arrangement of them |
| Query.WindowsTile | app.py:186 | for one fixed arrangement of the hits, the page after a page starts at its `next_offset`: the two pages together are the window of both sizes |
| Query.PageUnique | app.py:164-175 | when no two hits share a `pub_ts`, `ORDER BY pub_ts DESC LIMIT ? OFFSET ?` leaves one page only |
| Query.PagesTile | app.py:164-186 | when no two hits share a `pub_ts`, a page and the page requested at its `next_offset` together are the page of both sizes, so no row is repeated or skipped across requests |
| Query.TiedRowMayRepeat | app.py:164-186 | with two hits of equal `pub_ts`, the first page of size one and the page at its `next_offset` may both be the same row, the other never shown |
| Query.EmptyTermKeepsAll | app.py:164-175 | with an empty search term every row is a hit, as in the branch without `LIKE` |
| Query.TitlesContainTerm | app.py:164-169 | with a non-empty term without wildcards or NUL, every returned title's text before any NUL contains it up to ASCII case |
| Query.NulTermKeepsAll | app.py:160-169 | a term starting with NUL (`?q=%00`) keeps every row, as with no term |
| Query.HugeOffsetFails | app.py:156-175 | an offset written as a number beyond SQLite's INTEGER range fails the request whatever the table holds |

## Left out

- Flask routing, the password/cookie admin gate, login and logout: HTTP and authentication plumbing.
- The network fetch and its headers: `Fetch` is an input, one per configured feed, and the feed URLs themselves are not modelled.
- The SQLite connection, `init_db` and the `pub_ts` index: the table is an in-memory sequence of rows with auto-increment ids.
- `count_articles` is the length of the row sequence.
- `parsedate_to_datetime`, `urlparse(...).hostname`, `time.time()` and the `pub_iso` formatting are library or clock calls, so they are parameters or left out.
- Feed.ParseItems: one `now` serves a whole run, because the code's per-item `time.time()` calls are not modelled separately.
- Exceptions raised inside a feed's loop after some of its rows were inserted, such as an `OperationalError` from the database, are not modelled. A feed either contributes all its items or, when unusable, none.
- Decimal.ParseInt: accepts only ASCII digits, whereas Python's `int()` also accepts other Unicode decimal digits. The 4300-digit limit is the interpreter default and is not configurable here.
- Like.Like: SQLite's pattern-length limit is not modelled, and neither is an ICU-enabled SQLite build, which folds non-ASCII case.
- Like.ContainsFilter: holds only for terms without NUL, because a NUL ends SQLite's pattern early; Like.NulTermIsSuffix states what such terms match instead.
- Query.TitlesContainTerm: speaks of the title's text before its first NUL, because SQLite never reads further.
- Query.ApiArticles: the order of rows sharing a `pub_ts` is not pinned down, because SQL leaves it unspecified.
- The inline HTML/CSS/JavaScript front end is UI.

=== FILE: decimal.dfy ===
/**
 * Python's `int(text)` on a decimal string, as used for the `limit` and
 * `offset` query arguments: surrounding whitespace is ignored, one optional
 * sign, then ASCII digits that may be grouped by single underscores. Strings
 * with more digits than the interpreter's default conversion limit are
 * rejected like any other malformed input.
 */
module Decimal {
  import opened Options
  import opened Text

  /** The default of `sys.get_int_max_str_digits()`: longer decimal strings
      raise `ValueError`. */
  const MaxStrDigits := 4300

  predicate IsDigit(c: char)
  {
    '0' <= c <= '9'
  }

  predicate AllDigits(s: string)
  {
    forall i :: 0 <= i < |s| ==> IsDigit(s[i])
  }

  /** Digits with underscores allowed only singly and between two digits. */
  predicate Grouped(s: string)
  {
    && |s| > 0 && IsDigit(s[0]) && IsDigit(s[|s| - 1])
    && (forall i :: 0 <= i < |s| ==> IsDigit(s[i]) || s[i] == '_')
    && (forall i :: 0 <= i < |s| - 1 ==> s[i] == '_' ==> s[i + 1] != '_')
  }

  /** The digits of a grouped numeral, underscores removed. */
  function DropUnderscores(s: string): (ds: string)
    ensures |ds| <= |s|
    ensures (forall i :: 0 <= i < |s| ==> IsDigit(s[i]) || s[i] == '_') ==> AllDigits(ds)
    ensures AllDigits(s) ==> ds == s
  {
    if |s| == 0 then []
    else (if s[0] == '_' then [] else [s[0]]) + DropUnderscores(s[1..])
  }

  function DigitValue(c: char): nat
    requires IsDigit(c)
  {
    (c as int) - ('0' as int)
  }

  /** The number an all-digit string denotes in base ten. */
  function Value(ds: string): nat
    requires AllDigits(ds)
  {
    if |ds| == 0 then 0 else 10 * Value(ds[..|ds| - 1]) + DigitValue(ds[|ds| - 1])
  }

  /** Whitespace `int()` skips around a numeral: ASCII tab, line feed, vertical
      tab, form feed, carriage return and space, and every non-ASCII character
      `str.isspace` holds of. The ASCII separators U+001C to U+001F count as
      whitespace for `str.strip` but not here. */
  predicate IsIntSpace(c: char)
  {
    (9 <= c as int <= 13) || c == ' ' || (c as int >= 127 && IsSpace(c))
  }

  predicate AllIntSpace(s: string)
  {
    forall i :: 0 <= i < |s| ==> IsIntSpace(s[i])
  }

  /** Neither end of `s` is whitespace `int()` would skip. */
  predicate IntStripped(s: string)
  {
    s == [] || (!IsIntSpace(s[0]) && !IsIntSpace(s[|s| - 1]))
  }

  /** The text `int()` converts: `text` without the whitespace it skips at
      either end. */
  function IntStrip(s: string): (r: string)
    ensures IntStripped(r)
    ensures |r| <= |s|
    decreases |s|
  {
    if |s| > 0 && IsIntSpace(s[0]) then IntStrip(s[1..])
    else if |s| > 0 && IsIntSpace(s[|s| - 1]) then IntStrip(s[..|s| - 1])
    else s
  }

  /** `IntStrip` removes exactly the surrounding whitespace: padding a stripped
      text with skippable whitespace on both sides and stripping gives it back. */
  lemma {:induction false} IntStripOfPadded(w1: string, u: string, w2: string)
    requires AllIntSpace(w1) && AllIntSpace(w2) && IntStripped(u)
    ensures IntStrip(w1 + u + w2) == u
    decreases |w1| + |w2|
  {
    var s := w1 + u + w2;
    if |w1| > 0 {
      assert s[0] == w1[0];
      assert s[1..] == w1[1..] + u + w2;
      IntStripOfPadded(w1[1..], u, w2);
    } else if |u| > 0 {
      assert s[0] == u[0];
      if |w2| > 0 {
        assert s[|s| - 1] == w2[|w2| - 1];
        assert s[..|s| - 1] == w1 + u + w2[..|w2| - 1];
        IntStripOfPadded(w1, u, w2[..|w2| - 1]);
      } else {
        assert s == u;
      }
    } else if |w2| > 0 {
      assert s == w2;
      assert s[0] == w2[0];
      assert s[1..] == w1 + u + w2[1..];
      IntStripOfPadded(w1, u, w2[1..]);
    } else {
      assert s == [];
    }
  }

  /** `int(text)`: the integer, or `None` where Python raises `ValueError`. */
  function ParseInt(text: string): (r: Option<int>)
    ensures r.Some? ==> |IntStrip(text)| > 0
    ensures r.Some? && r.value < 0 ==> IntStrip(text)[0] == '-'
    ensures r.Some? ==> IsDigit(IntStrip(text)[|IntStrip(text)| - 1])
    ensures IntStrip(text) == [] ==> r.None?
  {
    ParseNumeral(IntStrip(text))
  }

  /** A separator U+001C to U+001F before a numeral is not skipped, so the
      conversion fails, although `str.strip` would remove it. */
  lemma SeparatorRejected(u: string)
    requires |u| > 0 && IsDigit(u[0]) && IsDigit(u[|u| - 1])
    ensures ParseInt([28 as char] + u) == None
    ensures Strip([28 as char] + u) == u
  {
    SeparatorNotSkipped(u);
    SeparatorStripped(u);
  }

  lemma SeparatorNotSkipped(u: string)
    requires |u| > 0 && IsDigit(u[0]) && IsDigit(u[|u| - 1])
    ensures ParseInt([28 as char] + u) == None
  {
    var s := [28 as char] + u;
    assert !IsIntSpace(s[0]) && s[|s| - 1] == u[|u| - 1];
    assert IntStrip(s) == s;
    assert !IsDigit(s[0]) && s[0] != '-' && s[0] != '+';
  }

  lemma SeparatorStripped(u: string)
    requires |u| > 0 && IsDigit(u[0]) && IsDigit(u[|u| - 1])
    ensures Strip([28 as char] + u) == u
  {
    var s := [28 as char] + u;
    assert s[1..] == u;
    assert !IsSpace(u[0]) && !IsSpace(u[|u| - 1]);
    assert LeadingSpace(u) == 0;
    assert LeadingSpace(s) == 1;
    assert TrailingSpace(u) == 0;
  }

  /** The conversion proper, once the whitespace is gone: an optional sign,
      then the digits. */
  function ParseNumeral(u: string): (r: Option<int>)
    ensures r.Some? ==> |u| > 0 && IsDigit(u[|u| - 1])
    ensures r.Some? && r.value < 0 ==> u[0] == '-'
  {
    if |u| > 0 && u[0] == '-' then
      match ParseDigits(u[1..])
      case None => None
      case Some(v) => Some(-v)
    else if |u| > 0 && u[0] == '+' then ParseDigits(u[1..])
    else ParseDigits(u)
  }

  /** An unsigned grouped numeral within the digit limit, and its value. */
  function ParseDigits(body: string): (r: Option<int>)
    ensures r.Some? ==> Grouped(body) && r.value >= 0
  {
    if !Grouped(body) then None
    else
      var ds := DropUnderscores(body);
      if |ds| > MaxStrDigits then None else Some(Value(ds))
  }

  /** Text without surrounding whitespace converts as it stands. */
  lemma ParseStripped(u: string)
    requires IntStripped(u)
    ensures ParseInt(u) == ParseNumeral(u)
  {
  }

  function Digit(d: nat): (c: char)
    requires d < 10
    ensures IsDigit(c) && DigitValue(c) == d
  {
    (('0' as int) + d) as char
  }

  /** `str(n)` for a non-negative `n`: its digits, without leading zeros. */
  function ShowNat(n: nat): (s: string)
    ensures |s| > 0 && AllDigits(s)
    ensures |s| > 1 ==> s[0] != '0'
    decreases n
  {
    if n < 10 then [Digit(n)] else ShowNat(n / 10) + [Digit(n % 10)]
  }

  /** `str(n)`. */
  function Show(n: int): string
  {
    if n < 0 then "-" + ShowNat(-n) else ShowNat(n)
  }

  /** Reading back the digits `ShowNat` writes gives the number. */
  lemma {:induction false} ValueOfShowNat(n: nat)
    ensures Value(ShowNat(n)) == n
    decreases n
  {
    var s := ShowNat(n);
    if n >= 10 {
      ValueOfShowNat(n / 10);
      assert s[..|s| - 1] == ShowNat(n / 10);
      assert s[|s| - 1] == Digit(n % 10);
    }
  }

  /** Round trip: `int(str(n)) == n` for every integer within the digit limit. */
  lemma ParseShow(n: int)
    requires |ShowNat(if n < 0 then -n else n)| <= MaxStrDigits
    ensures ParseInt(Show(n)) == Some(n)
  {
    NumeralOfShow(n);
    ShowIsStripped(n);
    ParseStripped(Show(n));
  }

  lemma NumeralOfShow(n: int)
    requires |ShowNat(if n < 0 then -n else n)| <= MaxStrDigits
    ensures ParseNumeral(Show(n)) == Some(n)
  {
    var m: nat := if n < 0 then -n else n;
    ValueOfShowNat(m);
    PlainNumeral(ShowNat(m));
    if n < 0 {
      assert Show(n)[1..] == ShowNat(m);
      NegativeNumeral(Show(n), m);
    }
  }

  lemma PlainNumeral(ds: string)
    requires |ds| > 0 && AllDigits(ds) && |ds| <= MaxStrDigits
    ensures ParseNumeral(ds) == Some(Value(ds))
    ensures ParseDigits(ds) == Some(Value(ds))
  {
    assert Grouped(ds);
  }

  lemma NegativeNumeral(u: string, v: int)
    requires |u| > 0 && u[0] == '-' && ParseDigits(u[1..]) == Some(v)
    ensures ParseNumeral(u) == Some(-v)
  {
  }

  lemma ShowIsStripped(n: int)
    ensures IntStripped(Show(n))
  {
    var s := Show(n);
    assert IsDigit(s[|s| - 1]);
    assert s[0] == '-' || IsDigit(s[0]);
  }

  /** A plain run of more digits than the limit is rejected, whatever it denotes. */
  lemma TooManyDigits(s: string)
    requires AllDigits(s) && |s| > MaxStrDigits
    ensures ParseInt(s) == None
  {
    assert ParseNumeral(s) == None by {
      assert Grouped(s);
      assert DropUnderscores(s) == s;
    }
    assert IntStripped(s) by {
      assert IsDigit(s[0]) && IsDigit(s[|s| - 1]);
    }
    ParseStripped(s);
  }

  /** Underscore grouping does not change the number: `int("1_000") == int("1000")`. */
  lemma UnderscoresIgnored(s: string)
    requires Grouped(s)
    ensures ParseInt(s) == ParseInt(DropUnderscores(s))
  {
    NumeralIgnoresUnderscores(s);
    DropUnderscoresKeepsEnds(s);
    GroupedParse(s);
    GroupedParse(DropUnderscores(s));
  }

  /** A numeral starting and ending in a digit has no whitespace to strip. */
  lemma GroupedParse(s: string)
    requires |s| > 0 && IsDigit(s[0]) && IsDigit(s[|s| - 1])
    ensures ParseInt(s) == ParseNumeral(s)
  {
    assert !IsIntSpace(s[0]) && !IsIntSpace(s[|s| - 1]);
    ParseStripped(s);
  }

  lemma NumeralIgnoresUnderscores(s: string)
    requires Grouped(s)
    ensures ParseNumeral(s) == ParseNumeral(DropUnderscores(s))
  {
    var ds := DropUnderscores(s);
    DropUnderscoresKeepsEnds(s);
    assert Grouped(ds);
    assert DropUnderscores(ds) == ds;
  }

  lemma {:induction false} DropUnderscoresKeepsEnds(s: string)
    requires Grouped(s)
    ensures var ds := DropUnderscores(s); |ds| > 0 && ds[0] == s[0] && ds[|ds| - 1] == s[|s| - 1]
  {
    assert DropUnderscores(s) == [s[0]] + DropUnderscores(s[1..]);
    if |s| > 1 {
      LastDigitKept(s[1..]);
    }
  }

  /** The last character survives when it is a digit. */
  lemma {:induction false} LastDigitKept(s: string)
    requires |s| > 0 && IsDigit(s[|s| - 1])
    ensures var ds := DropUnderscores(s); |ds| > 0 && ds[|ds| - 1] == s[|s| - 1]
    decreases |s|
  {
    if |s| > 1 {
      LastDigitKept(s[1..]);
    }
  }
}

=== FILE: feed.dfy ===
/**
 * The string-slicing RSS/Atom extractor of the feed-collection handler: the
 * body is cut into item segments at `<item` (or at `<entry` when there is no
 * `<item`), each segment is trimmed at its closing tag, and the title, link
 * and publication time are sliced out of it. Items without a title or a link
 * are dropped.
 */
module Feed {
  import opened Options
  import opened Text
  import opened Scan

  const ItemOpen := "<item"
  const EntryOpen := "<entry"
  const ItemClose := "</item>"
  const EntryClose := "</entry>"
  const TitleOpen := "<title"
  const TitleClose := "</title>"
  const LinkOpen := "<link>"
  const LinkClose := "</link>"
  const HrefMark := "href="
  const Quote := "\""
  const PubDateOpen := "<pubDate>"
  const PubDateClose := "</pubDate>"
  const UpdatedOpen := "<updated>"
  const UpdatedClose := "</updated>"

  /** One extracted item, as it stands just before the empty-field check. */
  datatype Item = Item(title: string, link: string, pubTs: int)

  /** Both fields the handler insists on are present. */
  predicate Complete(it: Item)
  {
    it.title != [] && it.link != []
  }

  /** The links of a sequence of items, in order. */
  function Links(items: seq<Item>): (links: seq<string>)
    ensures |links| == |items|
    ensures forall i :: 0 <= i < |items| ==> links[i] == items[i].link
  {
    if |items| == 0 then [] else [items[0].link] + Links(items[1..])
  }

  /** The titles of a sequence of items, in order. */
  function Titles(items: seq<Item>): (titles: seq<string>)
    ensures |titles| == |items|
    ensures forall i :: 0 <= i < |items| ==> titles[i] == items[i].title
  {
    if |items| == 0 then [] else [items[0].title] + Titles(items[1..])
  }

  /** A date-string parser that may fail: RFC 2822 parsing followed by
      conversion to whole epoch seconds in UTC. */
  type DateParser = string -> Option<int>

  /** Best-effort conversion of a date string: the parsed epoch, or the
      current time `now` whenever parsing fails. */
  function AsEpoch(text: string, now: int, parseDate: DateParser): (ts: int)
    ensures parseDate(text).None? ==> ts == now
    ensures parseDate(text).Some? ==> ts == parseDate(text).value
  {
    parseDate(text).GetOr(now)
  }

  /** The raw item segments: the pieces after each `<item`, or, when the text has
      none, after each `<entry`. The text before the first delimiter (the channel
      header) is not a segment. */
  function Segments(text: string): (segs: seq<string>)
    ensures Contains(text, ItemOpen) ==>
              |segs| >= 1 && IsSplit(text, ItemOpen, [Before(text, ItemOpen)] + segs)
    ensures !Contains(text, ItemOpen) && Contains(text, EntryOpen) ==>
              |segs| >= 1 && IsSplit(text, EntryOpen, [Before(text, EntryOpen)] + segs)
    ensures !Contains(text, ItemOpen) && !Contains(text, EntryOpen) ==> segs == []
  {
    var parts := Split(text, ItemOpen);
    if |parts| == 1 then
      var entries := Split(text, EntryOpen);
      SplitHeadIsBefore(text, EntryOpen);
      assert entries == [entries[0]] + entries[1..];
      entries[1..]
    else
      SplitHeadIsBefore(text, ItemOpen);
      assert parts == [parts[0]] + parts[1..];
      parts[1..]
  }

  /** The first piece of a split is the text before the first separator. */
  lemma SplitHeadIsBefore(s: string, sep: string)
    requires |sep| > 0
    ensures Split(s, sep)[0] == Before(s, sep)
  {
  }

  /** A header and pieces joined by `<item`, none of them holding `<item`
      itself, has exactly those pieces as segments. */
  lemma ItemSegments(text: string, head: string, pieces: seq<string>)
    requires SplitsFreely(text, head, pieces, ItemOpen)
    ensures Segments(text) == pieces
  {
    TagsUnbordered();
    SplitOfFree(head, pieces, ItemOpen);
    assert ([head] + pieces)[1..] == pieces;
  }

  /** `text` has no `<item` and splits at `<entry` into `head` and `pieces`. */
  predicate EntriesOnly(text: string, head: string, pieces: seq<string>)
  {
    SplitsFreely(text, head, pieces, EntryOpen) && !Contains(text, ItemOpen)
  }

  /** Likewise for `<entry`, in text that has no `<item` at all. */
  lemma EntrySegments(text: string, head: string, pieces: seq<string>)
    requires EntriesOnly(text, head, pieces)
    ensures Segments(text) == pieces
  {
    TagsUnbordered();
    SplitOfFree(head, pieces, EntryOpen);
    assert ([head] + pieces)[1..] == pieces;
  }

  /** A segment ends before its first `</item>`, or else before its first
      `</entry>`, or else runs to the end of the piece. */
  function ItemBody(raw: string): (seg: string)
    ensures Contains(raw, ItemClose) ==> FirstAt(raw, ItemClose, |seg|) && seg == raw[..|seg|]
    ensures !Contains(raw, ItemClose) && Contains(raw, EntryClose) ==>
              FirstAt(raw, EntryClose, |seg|) && seg == raw[..|seg|]
    ensures !Contains(raw, ItemClose) && !Contains(raw, EntryClose) ==> seg == raw
  {
    if Contains(raw, ItemClose) then Before(raw, ItemClose) else Before(raw, EntryClose)
  }

  /** The title: after the first `<title`, past the end of that tag (`>`), up to
      `</title>`, whitespace-stripped; empty when there is no `<title` or no `>`
      after it. */
  function ExtractTitle(seg: string): (title: string)
    ensures IsStripped(title)
    ensures !Contains(seg, TitleOpen) ==> title == ""
  {
    if Contains(seg, TitleOpen) then
      var rest := After(seg, TitleOpen);
      if Contains(rest, ">") then Strip(Before(After(rest, ">"), TitleClose)) else ""
    else ""
  }

  /** The link: the stripped text of a `<link>` element when the segment has one;
      otherwise the text after the first `href=` between its first two double
      quotes (or after the first quote, when there is only one); otherwise empty. */
  function ExtractLink(seg: string): (link: string)
    ensures IsStripped(link)
    ensures !Contains(seg, LinkOpen) && !Contains(seg, HrefMark) ==> link == ""
  {
    if Contains(seg, LinkOpen) then
      Strip(Before(After(seg, LinkOpen), LinkClose))
    else if Contains(seg, HrefMark) then
      var rest := After(seg, HrefMark);
      if Contains(rest, Quote) then Strip(Before(After(rest, Quote), Quote)) else ""
    else ""
  }

  /** The publication time: `<pubDate>` is consulted first, then `<updated>`; the
      text inside is stripped and converted with `AsEpoch`. With neither element,
      or when no date string parses, the time is `now`. */
  function ExtractTimestamp(seg: string, now: int, parseDate: DateParser): (ts: int)
    ensures !Contains(seg, PubDateOpen) && !Contains(seg, UpdatedOpen) ==> ts == now
    ensures (forall v :: parseDate(v).None?) ==> ts == now
  {
    if Contains(seg, PubDateOpen) then
      AsEpoch(Strip(Before(After(seg, PubDateOpen), PubDateClose)), now, parseDate)
    else if Contains(seg, UpdatedOpen) then
      AsEpoch(Strip(Before(After(seg, UpdatedOpen), UpdatedClose)), now, parseDate)
    else now
  }

  /** One raw segment to an item, or nothing when its title or link is empty. */
  function ParseItem(raw: string, now: int, parseDate: DateParser): (r: Option<Item>)
    ensures r.Some? ==> Complete(r.value)
    ensures r.Some? ==> IsStripped(r.value.title) && IsStripped(r.value.link)
    ensures r.None? <==> ExtractTitle(ItemBody(raw)) == "" || ExtractLink(ItemBody(raw)) == ""
    ensures r.Some? ==>
              var seg := ItemBody(raw);
              && r.value.title == ExtractTitle(seg) && r.value.link == ExtractLink(seg)
              && r.value.pubTs == ExtractTimestamp(seg, now, parseDate)
  {
    var seg := ItemBody(raw);
    var title := ExtractTitle(seg);
    var link := ExtractLink(seg);
    var ts := ExtractTimestamp(seg, now, parseDate);
    if title == "" || link == "" then None else Some(Item(title, link, ts))
  }

  /** Prepends a parsed item, if there is one. */
  function Keep(r: Option<Item>, rest: seq<Item>): (items: seq<Item>)
    requires r.Some? ==> Complete(r.value)
    requires forall i :: 0 <= i < |rest| ==> Complete(rest[i])
    ensures |items| <= |rest| + 1
    ensures forall i :: 0 <= i < |items| ==> Complete(items[i])
  {
    if r.None? then rest else [r.value] + rest
  }

  /** Some segment among `raws` parses to `it`. */
  predicate ParsedFrom(raws: seq<string>, it: Item, now: int, parseDate: DateParser)
  {
    exists i :: 0 <= i < |raws| && ParseItem(raws[i], now, parseDate) == Some(it)
  }

  /** The surviving items of a sequence of raw segments, in feed order: exactly
      the items the segments parse to. */
  function ParseItems(raws: seq<string>, now: int, parseDate: DateParser): (items: seq<Item>)
    ensures |items| <= |raws|
    ensures forall i :: 0 <= i < |items| ==> Complete(items[i])
    ensures forall it :: it in items <==> ParsedFrom(raws, it, now, parseDate)
  {
    if |raws| == 0 then []
    else
      var first := ParseItem(raws[0], now, parseDate);
      var rest := ParseItems(raws[1..], now, parseDate);
      ParsedFromCons(raws, now, parseDate);
      KeepMembers(first, rest);
      Keep(first, rest)
  }

  /** What `Keep` puts in front is the only item it adds. */
  lemma KeepMembers(r: Option<Item>, rest: seq<Item>)
    requires r.Some? ==> Complete(r.value)
    requires forall i :: 0 <= i < |rest| ==> Complete(rest[i])
    ensures forall it :: it in Keep(r, rest) <==> r == Some(it) || it in rest
  {
  }

  /** An item comes from the first segment or from one of the others. */
  lemma ParsedFromCons(raws: seq<string>, now: int, parseDate: DateParser)
    requires |raws| >= 1
    ensures forall it :: ParsedFrom(raws, it, now, parseDate) <==>
              ParseItem(raws[0], now, parseDate) == Some(it) || ParsedFrom(raws[1..], it, now, parseDate)
  {
    forall it | ParsedFrom(raws[1..], it, now, parseDate) ensures ParsedFrom(raws, it, now, parseDate) {
      var i :| 0 <= i < |raws[1..]| && ParseItem(raws[1..][i], now, parseDate) == Some(it);
      assert raws[i + 1] == raws[1..][i];
    }
    forall it | ParsedFrom(raws, it, now, parseDate) && ParseItem(raws[0], now, parseDate) != Some(it)
      ensures ParsedFrom(raws[1..], it, now, parseDate)
    {
      var i :| 0 <= i < |raws| && ParseItem(raws[i], now, parseDate) == Some(it);
      assert raws[1..][i - 1] == raws[i];
    }
  }

  /** A segment that parses to an item contributes that item, in front. */
  lemma ParseItemsStep(raws: seq<string>, now: int, parseDate: DateParser, it: Item)
    requires |raws| >= 1 && ParseItem(raws[0], now, parseDate) == Some(it)
    ensures ParseItems(raws, now, parseDate) == [it] + ParseItems(raws[1..], now, parseDate)
  {
  }

  /** The items of consecutive runs of segments are the items of the first run
      followed by those of the second: the result keeps the feed's order. */
  lemma {:induction false} ParseItemsAppend(a: seq<string>, b: seq<string>, now: int, parseDate: DateParser)
    ensures ParseItems(a + b, now, parseDate) == ParseItems(a, now, parseDate) + ParseItems(b, now, parseDate)
    decreases |a|
  {
    if |a| == 0 {
      assert a + b == b;
    } else {
      var r := ParseItem(a[0], now, parseDate);
      var rest := ParseItems(a[1..], now, parseDate);
      var tail := ParseItems(b, now, parseDate);
      assert ParseItems(a, now, parseDate) == Keep(r, rest) by {
        ParseItemsUnfold(a, now, parseDate);
      }
      assert ParseItems(a + b, now, parseDate) == Keep(r, rest + tail) by {
        ParseItemsUnfold(a + b, now, parseDate);
        ConsAppend(a, b);
        ParseItemsAppend(a[1..], b, now, parseDate);
      }
      KeepAppend(r, rest, tail);
    }
  }

  /** One step of `ParseItems`. */
  lemma ParseItemsUnfold(raws: seq<string>, now: int, parseDate: DateParser)
    requires |raws| >= 1
    ensures ParseItems(raws, now, parseDate)
            == Keep(ParseItem(raws[0], now, parseDate), ParseItems(raws[1..], now, parseDate))
  {
  }

  /** The head and tail of `a + b` for a non-empty `a`. */
  lemma ConsAppend(a: seq<string>, b: seq<string>)
    requires |a| >= 1
    ensures (a + b)[0] == a[0] && (a + b)[1..] == a[1..] + b
  {
  }

  lemma KeepAppend(r: Option<Item>, x: seq<Item>, y: seq<Item>)
    requires r.Some? ==> Complete(r.value)
    requires forall i :: 0 <= i < |x| ==> Complete(x[i])
    requires forall i :: 0 <= i < |y| ==> Complete(y[i])
    ensures Keep(r, x + y) == Keep(r, x) + y
  {
  }

  /** All items of one feed body: exactly the items its segments parse to. */
  function ExtractItems(text: string, now: int, parseDate: DateParser): (items: seq<Item>)
    ensures |items| <= |Segments(text)|
    ensures forall i :: 0 <= i < |items| ==> Complete(items[i])
    ensures forall it :: it in items <==> ParsedFrom(Segments(text), it, now, parseDate)
  {
    ParseItems(Segments(text), now, parseDate)
  }

  /** Which items survive, and their titles and links, do not depend on the clock
      or on the date parser: only `pubTs` does. */
  lemma {:induction false} ParseItemsIgnoreClock(raws: seq<string>, now1: int, p1: DateParser, now2: int, p2: DateParser)
    ensures Links(ParseItems(raws, now1, p1)) == Links(ParseItems(raws, now2, p2))
    ensures Titles(ParseItems(raws, now1, p1)) == Titles(ParseItems(raws, now2, p2))
  {
    if |raws| > 0 {
      ParseItemsIgnoreClock(raws[1..], now1, p1, now2, p2);
      var a := ParseItems(raws, now1, p1);
      var b := ParseItems(raws, now2, p2);
      if ParseItem(raws[0], now1, p1).Some? {
        assert a[1..] == ParseItems(raws[1..], now1, p1);
        assert b[1..] == ParseItems(raws[1..], now2, p2);
      }
    }
  }

  /** The same, for a whole feed body. */
  lemma ExtractItemsIgnoreClock(text: string, now1: int, p1: DateParser, now2: int, p2: DateParser)
    ensures Links(ExtractItems(text, now1, p1)) == Links(ExtractItems(text, now2, p2))
    ensures Titles(ExtractItems(text, now1, p1)) == Titles(ExtractItems(text, now2, p2))
  {
    ParseItemsIgnoreClock(Segments(text), now1, p1, now2, p2);
  }

  // ----- where each field comes from -----

  /** No tag the extractor looks for repeats its opening `<`, so text without
      the tag cannot start one that runs on into the tag after it. */
  lemma TagsUnbordered()
    ensures Unbordered(ItemOpen) && Unbordered(EntryOpen)
    ensures Unbordered(TitleOpen) && Unbordered(TitleClose)
    ensures Unbordered(LinkOpen) && Unbordered(LinkClose)
    ensures Unbordered(PubDateOpen) && Unbordered(PubDateClose)
    ensures Unbordered(UpdatedOpen) && Unbordered(UpdatedClose)
  {
    assert ItemOpen[1..] == "item" && EntryOpen[1..] == "entry";
    assert TitleOpen[1..] == "title" && TitleClose[1..] == "/title>";
    assert LinkOpen[1..] == "link>" && LinkClose[1..] == "/link>";
    assert PubDateOpen[1..] == "pubDate>" && PubDateClose[1..] == "/pubDate>";
    assert UpdatedOpen[1..] == "updated>" && UpdatedClose[1..] == "/updated>";
  }

  /** A title is the text between the end of the first `<title...>` tag and the
      next `</title>`, stripped; attributes inside the opening tag are skipped. */
  lemma TitleBetweenTags(p: string, attrs: string, v: string, rest: string)
    requires !Contains(p, TitleOpen) && '>' !in attrs && !Contains(v, TitleClose)
    ensures ExtractTitle(p + TitleOpen + attrs + ">" + v + TitleClose + rest) == Strip(v)
  {
    var y := v + TitleClose + rest;
    var x := attrs + ">" + y;
    var seg := p + TitleOpen + x;
    assert seg == p + TitleOpen + attrs + ">" + v + TitleClose + rest;
    TagsUnbordered();
    FirstAfterFree(p, TitleOpen, x);
    CutAt(p, TitleOpen, x);
    FirstAfterLastCharFree(attrs, ">", y);
    CutAt(attrs, ">", y);
    FirstAfterFree(v, TitleClose, rest);
    CutAt(v, TitleClose, rest);
  }

  /** A `<link>` element decides the link, whatever `href=` attributes the
      segment holds before or after it. */
  lemma LinkElementWins(p: string, v: string, rest: string)
    requires !Contains(p, LinkOpen) && !Contains(v, LinkClose)
    ensures ExtractLink(p + LinkOpen + v + LinkClose + rest) == Strip(v)
  {
    var x := v + LinkClose + rest;
    assert p + LinkOpen + v + LinkClose + rest == p + LinkOpen + x;
    TagsUnbordered();
    FirstAfterFree(p, LinkOpen, x);
    CutAt(p, LinkOpen, x);
    FirstAfterFree(v, LinkClose, rest);
    CutAt(v, LinkClose, rest);
  }

  /** Without a `<link>` element, the link is the quoted value after the first
      `href=`: the text between its first two double quotes. */
  lemma LinkFromHref(p: string, a: string, v: string, rest: string)
    requires !Contains(p + HrefMark + a + Quote + v + Quote + rest, LinkOpen)
    requires FirstAt(p + HrefMark + a + Quote + v + Quote + rest, HrefMark, |p|)
    requires '"' !in a && '"' !in v
    ensures ExtractLink(p + HrefMark + a + Quote + v + Quote + rest) == Strip(v)
  {
    var y := v + Quote + rest;
    var x := a + Quote + y;
    assert p + HrefMark + a + Quote + v + Quote + rest == p + HrefMark + x;
    CutAt(p, HrefMark, x);
    FirstAfterLastCharFree(a, Quote, y);
    CutAt(a, Quote, y);
    FirstAfterLastCharFree(v, Quote, rest);
    CutAt(v, Quote, rest);
  }

  /** With a single double quote after `href=`, the link runs to the end of the
      segment. */
  lemma LinkFromUnclosedHref(p: string, a: string, v: string)
    requires !Contains(p + HrefMark + a + Quote + v, LinkOpen)
    requires FirstAt(p + HrefMark + a + Quote + v, HrefMark, |p|)
    requires '"' !in a && '"' !in v
    ensures ExtractLink(p + HrefMark + a + Quote + v) == Strip(v)
  {
    var x := a + Quote + v;
    assert p + HrefMark + a + Quote + v == p + HrefMark + x;
    CutAt(p, HrefMark, x);
    FirstAfterLastCharFree(a, Quote, v);
    CutAt(a, Quote, v);
    FreeTextAvoids(v, Quote);
    CutAbsent(v, Quote);
  }

  /** `href=` with no double quote after it yields no link. */
  lemma HrefWithoutQuote(p: string, a: string)
    requires !Contains(p + HrefMark + a, LinkOpen)
    requires FirstAt(p + HrefMark + a, HrefMark, |p|)
    requires '"' !in a
    ensures ExtractLink(p + HrefMark + a) == ""
  {
    CutAt(p, HrefMark, a);
    FreeTextAvoids(a, Quote);
    AvoidsExcludes(a, Quote);
  }

  /** A `<pubDate>` element decides the time, whatever `<updated>` elements the
      segment also holds. */
  lemma PubDateWins(p: string, v: string, rest: string, now: int, parseDate: DateParser)
    requires !Contains(p, PubDateOpen) && !Contains(v, PubDateClose)
    ensures ExtractTimestamp(p + PubDateOpen + v + PubDateClose + rest, now, parseDate)
            == AsEpoch(Strip(v), now, parseDate)
  {
    var x := v + PubDateClose + rest;
    assert p + PubDateOpen + v + PubDateClose + rest == p + PubDateOpen + x;
    TagsUnbordered();
    FirstAfterFree(p, PubDateOpen, x);
    CutAt(p, PubDateOpen, x);
    FirstAfterFree(v, PubDateClose, rest);
    CutAt(v, PubDateClose, rest);
  }

  /** Without `<pubDate>`, an `<updated>` element decides the time. */
  lemma UpdatedIsFallback(p: string, v: string, rest: string, now: int, parseDate: DateParser)
    requires !Contains(p + UpdatedOpen + v + UpdatedClose + rest, PubDateOpen)
    requires !Contains(p, UpdatedOpen) && !Contains(v, UpdatedClose)
    ensures ExtractTimestamp(p + UpdatedOpen + v + UpdatedClose + rest, now, parseDate)
            == AsEpoch(Strip(v), now, parseDate)
  {
    var x := v + UpdatedClose + rest;
    assert p + UpdatedOpen + v + UpdatedClose + rest == p + UpdatedOpen + x;
    TagsUnbordered();
    FirstAfterFree(p, UpdatedOpen, x);
    CutAt(p, UpdatedOpen, x);
    FirstAfterFree(v, UpdatedClose, rest);
    CutAt(v, UpdatedClose, rest);
  }
}

=== FILE: ingest.dfy ===
/**
 * The collection run behind `/admin/fetch`: every configured feed is fetched in
 * turn, its items are extracted, labelled with their source and inserted into
 * the deduplicating table; a feed that cannot be used is skipped and the run
 * goes on with the next one. The reply reports how many rows were added and
 * how many the table now holds.
 */
module Ingest {
  import Feed
  import opened SourceLabel
  import opened Store

  /** What fetching one feed URL produced: nothing (a network error or
      timeout), or an HTTP response with its status and body. */
  datatype Fetch = Unreachable | Response(status: int, text: string)

  /** Only a 200 response with a non-empty body is parsed. */
  predicate Usable(f: Fetch)
  {
    f.Response? && f.status == 200 && f.text != []
  }

  /** The source label stored with an article: its link's host, without fallback. */
  function SourceOf(link: string, hostOf: HostParser): (src: string)
    ensures hostOf(link).Malformed? ==> src == "unknown"
    ensures hostOf(link).NoHost? ==> src == ""
    ensures hostOf(link).Host? ==> |src| <= |hostOf(link).name|
  {
    NormalizeSource("", hostOf(link))
  }

  /** A row about to be inserted carries a title, a link and its link's label. */
  predicate Labelled(d: Draft, hostOf: HostParser)
  {
    d.title != [] && d.link != [] && d.source == SourceOf(d.link, hostOf)
  }

  /** The insert values for one extracted item. */
  function ToDraft(it: Feed.Item, hostOf: HostParser): (d: Draft)
    ensures Feed.Complete(it) ==> Labelled(d, hostOf)
  {
    Draft(it.title, it.link, SourceOf(it.link, hostOf), it.pubTs)
  }

  /** `ds` holds one draft per item, position by position, with the item's
      title, link and time and the link's source label. */
  predicate DraftsFor(ds: seq<Draft>, items: seq<Feed.Item>, hostOf: HostParser)
  {
    && |ds| == |items|
    && forall i :: 0 <= i < |ds| ==>
         && ds[i].title == items[i].title && ds[i].link == items[i].link
         && ds[i].pubTs == items[i].pubTs && ds[i].source == SourceOf(items[i].link, hostOf)
  }

  /** The drafts one feed contributes, in document order: none when the feed
      is unusable. */
  function SourceDrafts(f: Fetch, now: int, parseDate: Feed.DateParser, hostOf: HostParser): (ds: seq<Draft>)
    ensures !Usable(f) ==> ds == []
    ensures forall i :: 0 <= i < |ds| ==> Labelled(ds[i], hostOf)
    ensures Usable(f) ==> DraftsFor(ds, Feed.ExtractItems(f.text, now, parseDate), hostOf)
  {
    if !Usable(f) then []
    else
      var items := Feed.ExtractItems(f.text, now, parseDate);
      seq(|items|, i requires 0 <= i < |items| => ToDraft(items[i], hostOf))
  }

  /** The drafts of all feeds, feed after feed. */
  function AllDrafts(fs: seq<Fetch>, now: int, parseDate: Feed.DateParser, hostOf: HostParser): (ds: seq<Draft>)
    ensures forall i :: 0 <= i < |ds| ==> Labelled(ds[i], hostOf)
    decreases |fs|
  {
    if |fs| == 0 then []
    else SourceDrafts(fs[0], now, parseDate, hostOf) + AllDrafts(fs[1..], now, parseDate, hostOf)
  }

  /** The loop over the feeds: each feed's drafts are inserted into the table
      left by the feeds before it, and the additions are summed. */
  function FetchSources(t: Table, fs: seq<Fetch>, now: int, parseDate: Feed.DateParser, hostOf: HostParser): (r: Batch)
    ensures Valid(t) ==> Valid(r.table)
    ensures t.rows <= r.table.rows
    ensures r.added == |r.table.rows| - |t.rows|
    decreases |fs|
  {
    if |fs| == 0 then Batch(t, 0)
    else
      var first := InsertAll(t, SourceDrafts(fs[0], now, parseDate, hostOf));
      var rest := FetchSources(first.table, fs[1..], now, parseDate, hostOf);
      Batch(rest.table, first.added + rest.added)
  }

  /** The reply of a run: the rows added, and the size of the table afterwards. */
  datatype Report = Report(table: Table, added: nat, total: nat)

  /** One run of `/admin/fetch` past the admin check. The feeds' fetch results,
      the clock, the date parser and the host extractor are inputs. */
  function AdminFetch(t: Table, fs: seq<Fetch>, now: int, parseDate: Feed.DateParser, hostOf: HostParser): (r: Report)
    ensures Valid(t) ==> Valid(r.table)
    ensures t.rows <= r.table.rows
    ensures r.total == |r.table.rows| == |t.rows| + r.added
  {
    var b := FetchSources(t, fs, now, parseDate, hostOf);
    Report(b.table, b.added, |b.table.rows|)
  }

  // ----- the run as a single batch -----

  /** Feeding the sources one by one is the same as inserting all their drafts
      in one batch. */
  lemma {:induction false} FetchSourcesIsOneBatch(t: Table, fs: seq<Fetch>, now: int, parseDate: Feed.DateParser, hostOf: HostParser)
    ensures FetchSources(t, fs, now, parseDate, hostOf) == InsertAll(t, AllDrafts(fs, now, parseDate, hostOf))
    decreases |fs|
  {
    if |fs| > 0 {
      var head := SourceDrafts(fs[0], now, parseDate, hostOf);
      var tail := AllDrafts(fs[1..], now, parseDate, hostOf);
      InsertAllAppend(t, head, tail);
      FetchSourcesIsOneBatch(InsertAll(t, head).table, fs[1..], now, parseDate, hostOf);
    }
  }

  lemma {:induction false} AllDraftsAppend(a: seq<Fetch>, b: seq<Fetch>, now: int, parseDate: Feed.DateParser, hostOf: HostParser)
    ensures AllDrafts(a + b, now, parseDate, hostOf)
            == AllDrafts(a, now, parseDate, hostOf) + AllDrafts(b, now, parseDate, hostOf)
    decreases |a|
  {
    if |a| == 0 {
      assert a + b == b;
    } else {
      assert (a + b)[0] == a[0];
      assert (a + b)[1..] == a[1..] + b;
      AllDraftsAppend(a[1..], b, now, parseDate, hostOf);
    }
  }

  /** Per-source isolation: a feed that failed (unreachable, non-200 status or
      empty body) changes nothing, wherever it sits in the list; the feeds after
      it are processed exactly as if it were absent. */
  lemma FailedSourceIsSkipped(t: Table, a: seq<Fetch>, f: Fetch, b: seq<Fetch>,
                              now: int, parseDate: Feed.DateParser, hostOf: HostParser)
    requires !Usable(f)
    ensures AdminFetch(t, a + [f] + b, now, parseDate, hostOf) == AdminFetch(t, a + b, now, parseDate, hostOf)
  {
    var da := AllDrafts(a, now, parseDate, hostOf);
    var db := AllDrafts(b, now, parseDate, hostOf);
    assert AllDrafts([f], now, parseDate, hostOf) == [];
    AllDraftsAppend(a, [f], now, parseDate, hostOf);
    assert AllDrafts(a + [f], now, parseDate, hostOf) == da;
    AllDraftsAppend(a + [f], b, now, parseDate, hostOf);
    AllDraftsAppend(a, b, now, parseDate, hostOf);
    assert AllDrafts(a + [f] + b, now, parseDate, hostOf) == AllDrafts(a + b, now, parseDate, hostOf);
    FetchSourcesIsOneBatch(t, a + [f] + b, now, parseDate, hostOf);
    FetchSourcesIsOneBatch(t, a + b, now, parseDate, hostOf);
  }

  // ----- what a run adds -----

  /** `added` is the number of distinct links, among the items kept from the
      usable feeds, that the table did not hold before the run. */
  lemma AddedCountsNewLinks(t: Table, fs: seq<Fetch>, now: int, parseDate: Feed.DateParser, hostOf: HostParser)
    requires Valid(t)
    ensures AdminFetch(t, fs, now, parseDate, hostOf).added
            == |DraftLinks(AllDrafts(fs, now, parseDate, hostOf)) - Links(t.rows)|
  {
    FetchSourcesIsOneBatch(t, fs, now, parseDate, hostOf);
    InsertAllCountsNewLinks(t, AllDrafts(fs, now, parseDate, hostOf));
  }

  /** Every row a run adds has a non-empty title and link (items lacking either
      are dropped), is labelled with its link's source, and carries the values
      of the first kept item with that link. */
  lemma NewRowsAreLabelled(t: Table, fs: seq<Fetch>, now: int, parseDate: Feed.DateParser, hostOf: HostParser)
    requires Valid(t)
    ensures var rows := AdminFetch(t, fs, now, parseDate, hostOf).table.rows;
            forall k :: |t.rows| <= k < |rows| ==>
              && rows[k].title != [] && rows[k].link != []
              && rows[k].source == SourceOf(rows[k].link, hostOf)
              && FromFirstDraft(AllDrafts(fs, now, parseDate, hostOf), rows[k])
  {
    var ds := AllDrafts(fs, now, parseDate, hostOf);
    FetchSourcesIsOneBatch(t, fs, now, parseDate, hostOf);
    InsertAllFirstWins(t, ds);
    var rows := InsertAll(t, ds).table.rows;
    forall k | |t.rows| <= k < |rows|
      ensures rows[k].title != [] && rows[k].link != [] && rows[k].source == SourceOf(rows[k].link, hostOf)
    {
      var i :| FirstWithLink(ds, i, rows[k].link) && Stores(rows[k], ds[i]);
      assert Labelled(ds[i], hostOf);
    }
  }

  // ----- running again -----

  lemma DraftLinksAppend(a: seq<Draft>, b: seq<Draft>)
    ensures DraftLinks(a + b) == DraftLinks(a) + DraftLinks(b)
  {
    forall l | l in DraftLinks(a + b) ensures l in DraftLinks(a) + DraftLinks(b) {
      var i :| 0 <= i < |a + b| && (a + b)[i].link == l;
      if i >= |a| { assert (a + b)[i] == b[i - |a|]; }
    }
    forall l | l in DraftLinks(a) ensures l in DraftLinks(a + b) {
      var i :| 0 <= i < |a| && a[i].link == l;
      assert (a + b)[i] == a[i];
    }
    forall l | l in DraftLinks(b) ensures l in DraftLinks(a + b) {
      var i :| 0 <= i < |b| && b[i].link == l;
      assert (a + b)[|a| + i] == b[i];
    }
  }

  /** The links one feed contributes do not depend on the clock or the date parser. */
  lemma SourceLinksIgnoreClock(f: Fetch, now1: int, p1: Feed.DateParser, now2: int, p2: Feed.DateParser, hostOf: HostParser)
    ensures DraftLinks(SourceDrafts(f, now1, p1, hostOf)) == DraftLinks(SourceDrafts(f, now2, p2, hostOf))
  {
    if Usable(f) {
      Feed.ExtractItemsIgnoreClock(f.text, now1, p1, now2, p2);
      var items1 := Feed.ExtractItems(f.text, now1, p1);
      var items2 := Feed.ExtractItems(f.text, now2, p2);
      var d1 := SourceDrafts(f, now1, p1, hostOf);
      var d2 := SourceDrafts(f, now2, p2, hostOf);
      forall i | 0 <= i < |d1| ensures d1[i].link == d2[i].link {
        assert Feed.Links(items1)[i] == Feed.Links(items2)[i];
      }
      SameLinks(d1, d2);
    }
  }

  lemma {:induction false} AllLinksIgnoreClock(fs: seq<Fetch>, now1: int, p1: Feed.DateParser, now2: int, p2: Feed.DateParser, hostOf: HostParser)
    ensures DraftLinks(AllDrafts(fs, now1, p1, hostOf)) == DraftLinks(AllDrafts(fs, now2, p2, hostOf))
    decreases |fs|
  {
    if |fs| > 0 {
      SourceLinksIgnoreClock(fs[0], now1, p1, now2, p2, hostOf);
      AllLinksIgnoreClock(fs[1..], now1, p1, now2, p2, hostOf);
      DraftLinksAppend(SourceDrafts(fs[0], now1, p1, hostOf), AllDrafts(fs[1..], now1, p1, hostOf));
      DraftLinksAppend(SourceDrafts(fs[0], now2, p2, hostOf), AllDrafts(fs[1..], now2, p2, hostOf));
    }
  }

  /** Fetching the same feed bodies again, at any later time and with any date
      parser, adds nothing and leaves every stored row as it was. */
  lemma RerunAddsNothing(t: Table, fs: seq<Fetch>, now1: int, p1: Feed.DateParser,
                         now2: int, p2: Feed.DateParser, hostOf: HostParser)
    ensures var first := AdminFetch(t, fs, now1, p1, hostOf);
            var again := AdminFetch(first.table, fs, now2, p2, hostOf);
            again.added == 0 && again.table == first.table && again.total == first.total
  {
    var first := FetchSources(t, fs, now1, p1, hostOf);
    FetchSourcesIsOneBatch(t, fs, now1, p1, hostOf);
    FetchSourcesIsOneBatch(first.table, fs, now2, p2, hostOf);
    AllLinksIgnoreClock(fs, now1, p1, now2, p2, hostOf);
    InsertAllKnown(first.table, AllDrafts(fs, now2, p2, hostOf));
  }
}

=== FILE: like.dfy ===
/**
 * SQLite's `LIKE` operator as the title filter uses it (no `ESCAPE` clause,
 * default case sensitivity): `%` matches any run of characters, `_` matches
 * exactly one, and every other character matches itself with ASCII letters
 * compared case-insensitively. Both operands are read as C strings, so each
 * ends at its first NUL character.
 */
module Like {
  import opened Text

  const Nul: char := '\0'

  /** The text before the first NUL: what a C-string reader sees of `s`. */
  function UpToNul(s: string): (r: string)
    ensures |r| <= |s| && r == s[..|r|]
    ensures Nul !in r
    ensures |r| < |s| ==> s[|r|] == Nul
    ensures Nul !in s ==> r == s
  {
    if |s| == 0 || s[0] == Nul then [] else [s[0]] + UpToNul(s[1..])
  }

  /** Text free of NUL is read in full and the reading goes on into what follows. */
  lemma {:induction false} UpToNulAppend(a: string, b: string)
    ensures Nul !in a ==> UpToNul(a + b) == a + UpToNul(b)
    ensures Nul in a ==> UpToNul(a + b) == UpToNul(a)
    decreases |a|
  {
    if |a| > 0 {
      assert (a + b)[0] == a[0];
      assert (a + b)[1..] == a[1..] + b;
      UpToNulAppend(a[1..], b);
      if a[0] != Nul {
        assert Nul in a ==> Nul in a[1..];
      }
    } else {
      assert a + b == b;
    }
  }

  /** ASCII upper case to lower case; every other character is unchanged. */
  function Fold(c: char): char
  {
    if 'A' <= c <= 'Z' then (c as int + 32) as char else c
  }

  function Lower(s: string): (r: string)
    ensures |r| == |s|
    ensures forall i :: 0 <= i < |s| ==> r[i] == Fold(s[i])
  {
    seq(|s|, i requires 0 <= i < |s| => Fold(s[i]))
  }

  /** The pattern holds no wildcard. */
  predicate Literal(p: string)
  {
    forall i :: 0 <= i < |p| ==> p[i] != '%' && p[i] != '_'
  }

  /** The pattern matcher on NUL-free text: `s` matches `p`. A non-empty
      pattern made only of `%` matches everything; one without `%` matches only texts of its
      own length, as each other character stands for exactly one. */
  function Match(s: string, p: string): (r: bool)
    ensures |p| > 0 && (forall i :: 0 <= i < |p| ==> p[i] == '%') ==> r
    ensures r && (forall i :: 0 <= i < |p| ==> p[i] != '%') ==> |s| == |p|
    decreases |s| + |p|
  {
    if |p| == 0 then |s| == 0
    else if p[0] == '%' then Match(s, p[1..]) || (|s| > 0 && Match(s[1..], p))
    else |s| > 0 && (p[0] == '_' || Fold(p[0]) == Fold(s[0])) && Match(s[1..], p[1..])
  }

  /** `s LIKE p`: both operands end at their first NUL, so operands without
      NUL are matched as they stand. */
  function Like(s: string, p: string): (r: bool)
    ensures Nul !in s && Nul !in p ==> (r <==> Match(s, p))
  {
    Match(UpToNul(s), UpToNul(p))
  }

  /** A lone `%` matches everything. */
  lemma {:induction false} PercentMatchesAll(s: string)
    ensures Match(s, "%")
    decreases |s|
  {
    if |s| > 0 {
      PercentMatchesAll(s[1..]);
    }
  }

  /** A literal pattern followed by `%` matches exactly the strings that start
      with it, up to ASCII case. */
  lemma {:induction false} LiteralPrefix(s: string, q: string)
    requires Literal(q)
    ensures Match(s, q + "%") <==> |q| <= |s| && Lower(s[..|q|]) == Lower(q)
    decreases |q|
  {
    if |q| == 0 {
      assert q + "%" == "%";
      PercentMatchesAll(s);
    } else {
      assert (q + "%")[0] == q[0];
      assert (q + "%")[1..] == q[1..] + "%";
      if |s| > 0 {
        LiteralPrefix(s[1..], q[1..]);
        if |q| <= |s| {
          assert Lower(s[..|q|]) == Lower(q) <==>
                 Fold(s[0]) == Fold(q[0]) && Lower(s[1..][..|q| - 1]) == Lower(q[1..]) by {
            assert Lower(s[..|q|]) == [Fold(s[0])] + Lower(s[1..][..|q| - 1]);
            assert Lower(q) == [Fold(q[0])] + Lower(q[1..]);
          }
        }
      }
    }
  }

  /** A leading `%` lets the rest of the pattern match any suffix. */
  lemma {:induction false} LeadingPercent(s: string, p: string)
    ensures Match(s, "%" + p) <==> exists k :: 0 <= k <= |s| && Match(s[k..], p)
    decreases |s|
  {
    var pp := "%" + p;
    assert pp[1..] == p;
    assert s[0..] == s;
    if |s| > 0 {
      LeadingPercent(s[1..], p);
      if Match(s, pp) && !Match(s, p) {
        var k :| 0 <= k <= |s[1..]| && Match(s[1..][k..], p);
        assert s[1..][k..] == s[k + 1..];
      }
      if exists k :: 0 <= k <= |s| && Match(s[k..], p) {
        var k :| 0 <= k <= |s| && Match(s[k..], p);
        if k > 0 {
          assert s[1..][k - 1..] == s[k..];
        }
      }
    }
  }

  /** The title filter `title LIKE '%q%'` with a wildcard-free, NUL-free `q`
      keeps exactly the titles whose text before any NUL contains `q`,
      ignoring ASCII case. */
  lemma ContainsFilter(s: string, q: string)
    requires Literal(q) && Nul !in q
    ensures Like(s, "%" + q + "%") <==> Contains(Lower(UpToNul(s)), Lower(q))
  {
    var p := "%" + q + "%";
    assert Nul !in p by {
      assert forall i :: 0 <= i < |p| ==> p[i] == '%' || p[i] == q[i - 1];
    }
    ContainsMatch(UpToNul(s), q);
  }

  /** A term holding a NUL ends the pattern there: `'%' || q || '%'` becomes
      `'%'` followed by the text of `q` before the NUL, which must then end the
      title's text, ignoring ASCII case. Whatever follows the NUL in `q`,
      wildcards included, is never read. */
  lemma NulTermIsSuffix(s: string, q: string)
    requires Nul in q && Literal(UpToNul(q))
    ensures var t := UpToNul(s);
            var c := UpToNul(q);
            Like(s, "%" + q + "%") <==> |c| <= |t| && Lower(t[|t| - |c|..]) == Lower(c)
  {
    var t := UpToNul(s);
    var c := UpToNul(q);
    NulCutsPattern(q);
    LeadingPercent(t, c);
    SuffixMatch(t, c);
  }

  /** In `'%' || q || '%'` with a NUL in `q`, the pattern SQLite reads is `%`
      followed by the text of `q` before the NUL. */
  lemma NulCutsPattern(q: string)
    requires Nul in q
    ensures UpToNul("%" + q + "%") == "%" + UpToNul(q)
  {
    assert "%" + q + "%" == "%" + (q + "%");
    UpToNulAppend("%", q + "%");
    UpToNulAppend(q, "%");
  }

  /** The search term `"\0"` makes the pattern a lone `%`, which every title matches. */
  lemma NulTermMatchesAll(s: string)
    ensures Like(s, "%" + [Nul] + "%")
  {
    NulTermIsSuffix(s, [Nul]);
    assert UpToNul([Nul]) == [];
  }

  /** A literal pattern matches exactly the texts equal to it up to ASCII case. */
  lemma {:induction false} LiteralExact(s: string, q: string)
    requires Literal(q)
    ensures Match(s, q) <==> |s| == |q| && Lower(s) == Lower(q)
    decreases |q|
  {
    if |q| > 0 && |s| > 0 {
      LiteralExact(s[1..], q[1..]);
      if |s| == |q| {
        assert Lower(s) == [Fold(s[0])] + Lower(s[1..]);
        assert Lower(q) == [Fold(q[0])] + Lower(q[1..]);
      }
    }
  }

  /** Some suffix of `t` matches the literal `c` exactly when `t` ends with `c`,
      up to ASCII case. */
  lemma SuffixMatch(t: string, c: string)
    requires Literal(c)
    ensures (exists k :: 0 <= k <= |t| && Match(t[k..], c)) <==> |c| <= |t| && Lower(t[|t| - |c|..]) == Lower(c)
  {
    forall k | 0 <= k <= |t| ensures Match(t[k..], c) <==> k == |t| - |c| && Lower(t[k..]) == Lower(c) {
      LiteralExact(t[k..], c);
    }
    if |c| <= |t| && Lower(t[|t| - |c|..]) == Lower(c) {
      assert Match(t[|t| - |c|..], c);
    }
  }

  /** The matcher's side of the filter: `%q%` matches exactly the texts that
      contain `q`, ignoring ASCII case. */
  lemma ContainsMatch(s: string, q: string)
    requires Literal(q)
    ensures Match(s, "%" + q + "%") <==> Contains(Lower(s), Lower(q))
  {
    assert "%" + q + "%" == "%" + (q + "%");
    LeadingPercent(s, q + "%");
    forall k | 0 <= k <= |s| ensures Match(s[k..], q + "%") <==> OccursAt(Lower(s), Lower(q), k) {
      LiteralPrefixAt(s, q, k);
    }
    if Contains(Lower(s), Lower(q)) {
      var k :| 0 <= k <= |Lower(s)| && OccursAt(Lower(s), Lower(q), k);
      assert Match(s[k..], q + "%");
    }
  }

  /** `q%` matches the suffix from `k` exactly when the folded text holds the
      folded `q` at `k`. */
  lemma LiteralPrefixAt(s: string, q: string, k: nat)
    requires Literal(q) && k <= |s|
    ensures Match(s[k..], q + "%") <==> OccursAt(Lower(s), Lower(q), k)
  {
    LiteralPrefix(s[k..], q);
    if k + |q| <= |s| {
      assert Lower(s)[k..k + |q|] == Lower(s[k..][..|q|]);
    }
  }
}

=== FILE: options.dfy ===
/** The optional value used wherever the source returns `None` or swallows an exception. */
module Options {

  datatype Option<+T> = None | Some(value: T) {

    /** The wrapped value, or `default` when there is none. */
    function GetOr(default: T): T
    {
      match this
      case Some(v) => v
      case None => default
    }
  }
}

=== FILE: query.dfy ===
/**
 * `GET /api/articles`: one page of stored articles, newest first, optionally
 * restricted to titles matching a search term, for infinite scrolling.
 */
module Query {
  import opened Options
  import opened Text
  import opened Decimal
  import opened Like
  import opened Store

  /** A query-string argument: absent, or present with its (possibly empty) text. */
  datatype Arg = Missing | Given(text: string)

  /** `request.args.get(name, default)`. */
  function ArgText(a: Arg, default: string): string
  {
    match a
    case Missing => default
    case Given(t) => t
  }

  const DefaultLimit := 20
  const MaxLimit := 50

  /** `max(1, min(50, int(limit)))`, or 20 when the argument does not parse;
      an absent argument reads as `"20"`. */
  function ClampLimit(a: Arg): (limit: int)
    ensures 1 <= limit <= MaxLimit
    ensures a.Missing? ==> limit == DefaultLimit
    ensures a.Given? && ParseInt(a.text).None? ==> limit == DefaultLimit
    ensures a.Given? && ParseInt(a.text).Some? ==>
              var n := ParseInt(a.text).value;
              (1 <= n <= MaxLimit ==> limit == n) && (n < 1 ==> limit == 1) && (n > MaxLimit ==> limit == MaxLimit)
  {
    DefaultsParse();
    match ParseInt(ArgText(a, "20"))
    case None => DefaultLimit
    case Some(n) => if n < 1 then 1 else if n > MaxLimit then MaxLimit else n
  }

  /** `max(0, int(offset))`, or 0 when the argument does not parse; an absent
      argument reads as `"0"`. */
  function ClampOffset(a: Arg): (offset: nat)
    ensures a.Missing? ==> offset == 0
    ensures a.Given? && ParseInt(a.text).None? ==> offset == 0
    ensures a.Given? && ParseInt(a.text).Some? ==>
              var n := ParseInt(a.text).value;
              (n >= 0 ==> offset == n) && (n < 0 ==> offset == 0)
  {
    DefaultsParse();
    match ParseInt(ArgText(a, "0"))
    case None => 0
    case Some(n) => if n < 0 then 0 else n
  }

  /** The columns the query selects. */
  datatype Entry = Entry(title: string, link: string, source: string, pubTs: int)

  function EntryOf(a: Article): Entry
  {
    Entry(a.title, a.link, a.source, a.pubTs)
  }

  /** The selected columns of every stored row, in table order. */
  function Select(rows: seq<Article>): (es: seq<Entry>)
    ensures |es| == |rows|
    ensures forall i :: 0 <= i < |rows| ==> es[i] == EntryOf(rows[i])
  {
    seq(|rows|, i requires 0 <= i < |rows| => EntryOf(rows[i]))
  }

  /** With an empty search term every row qualifies; otherwise the title must
      match `'%' || q || '%'`. */
  predicate Keeps(q: string, e: Entry)
  {
    q == [] || Like.Like(e.title, "%" + q + "%")
  }

  /** The `WHERE` clause: the qualifying rows, in their original order. */
  function Matching(pool: seq<Entry>, q: string): (hits: seq<Entry>)
    ensures |hits| <= |pool|
    ensures forall e :: e in hits <==> e in pool && Keeps(q, e)
    ensures multiset(hits) <= multiset(pool)
    ensures forall e :: multiset(hits)[e] == if Keeps(q, e) then multiset(pool)[e] else 0
    decreases |pool|
  {
    if |pool| == 0 then []
    else
      assert pool == [pool[0]] + pool[1..];
      (if Keeps(q, pool[0]) then [pool[0]] else []) + Matching(pool[1..], q)
  }

  /** Non-increasing in `pubTs`; nothing is said about the order of ties. */
  predicate NewestFirst(s: seq<Entry>)
  {
    forall i, j :: 0 <= i < j < |s| ==> s[i].pubTs >= s[j].pubTs
  }

  /** How many entries are strictly newer than `ts`. */
  function CountNewer(s: seq<Entry>, ts: int): (n: nat)
    ensures n <= |s|
  {
    if |s| == 0 then 0 else (if s[0].pubTs > ts then 1 else 0) + CountNewer(s[1..], ts)
  }

  /** How many entries are at least as new as `ts`. */
  function CountAtLeast(s: seq<Entry>, ts: int): (n: nat)
    ensures n <= |s|
  {
    if |s| == 0 then 0 else (if s[0].pubTs >= ts then 1 else 0) + CountAtLeast(s[1..], ts)
  }

  /** Every entry is no newer than `ts`. */
  predicate NoneAfter(s: seq<Entry>, ts: int)
  {
    forall k :: 0 <= k < |s| ==> s[k].pubTs <= ts
  }

  /** Puts `e` into a newest-first sequence. */
  function InsertNewest(e: Entry, s: seq<Entry>): (r: seq<Entry>)
    requires NewestFirst(s)
    ensures NewestFirst(r)
    ensures multiset(r) == multiset(s) + multiset{e}
    ensures |r| == |s| + 1
    ensures forall ts :: e.pubTs <= ts && NoneAfter(s, ts) ==> NoneAfter(r, ts)
    decreases |s|
  {
    if |s| == 0 || e.pubTs >= s[0].pubTs then
      [e] + s
    else
      var rest := InsertNewest(e, s[1..]);
      InsertBehind(e, s, rest);
      [s[0]] + rest
  }

  /** `e` goes behind the newest entry once it is inserted into the others. */
  lemma InsertBehind(e: Entry, s: seq<Entry>, rest: seq<Entry>)
    requires NewestFirst(s) && |s| > 0 && e.pubTs < s[0].pubTs
    requires NewestFirst(rest)
    requires multiset(rest) == multiset(s[1..]) + multiset{e}
    requires forall ts :: e.pubTs <= ts && NoneAfter(s[1..], ts) ==> NoneAfter(rest, ts)
    ensures NewestFirst([s[0]] + rest)
    ensures multiset([s[0]] + rest) == multiset(s) + multiset{e}
    ensures forall ts :: e.pubTs <= ts && NoneAfter(s, ts) ==> NoneAfter([s[0]] + rest, ts)
  {
    assert s == [s[0]] + s[1..];
    assert NoneAfter(s[1..], s[0].pubTs);
    assert NoneAfter(rest, s[0].pubTs);
    forall ts | e.pubTs <= ts && NoneAfter(s, ts) ensures NoneAfter([s[0]] + rest, ts) {
      assert NoneAfter(s[1..], ts);
    }
  }

  /** Inserting keeps the counts of newer and at-least-as-new entries. */
  lemma {:induction false} InsertNewestCounts(e: Entry, s: seq<Entry>, ts: int)
    requires NewestFirst(s)
    ensures CountNewer(InsertNewest(e, s), ts) == CountNewer([e] + s, ts)
    ensures CountAtLeast(InsertNewest(e, s), ts) == CountAtLeast([e] + s, ts)
    decreases |s|
  {
    if |s| > 0 && e.pubTs < s[0].pubTs {
      var rest := InsertNewest(e, s[1..]);
      InsertNewestCounts(e, s[1..], ts);
      assert InsertNewest(e, s) == [s[0]] + rest;
      assert ([s[0]] + rest)[1..] == rest;
      assert ([e] + s)[1..] == s;
      assert ([e] + s[1..])[1..] == s[1..];
    }
  }

  /** `ORDER BY pub_ts DESC`: one arrangement of the rows, newest first. */
  function SortNewest(s: seq<Entry>): (r: seq<Entry>)
    ensures NewestFirst(r)
    ensures multiset(r) == multiset(s)
    ensures |r| == |s|
    decreases |s|
  {
    if |s| == 0 then []
    else
      assert s == [s[0]] + s[1..];
      InsertNewest(s[0], SortNewest(s[1..]))
  }

  /** Sorting keeps the counts of newer and at-least-as-new entries. */
  lemma {:induction false} SortNewestCounts(s: seq<Entry>, ts: int)
    ensures CountNewer(SortNewest(s), ts) == CountNewer(s, ts)
    ensures CountAtLeast(SortNewest(s), ts) == CountAtLeast(s, ts)
    decreases |s|
  {
    if |s| > 0 {
      var rest := SortNewest(s[1..]);
      SortNewestCounts(s[1..], ts);
      InsertNewestCounts(s[0], rest, ts);
      assert ([s[0]] + rest)[1..] == rest;
    }
  }

  /** `LIMIT limit OFFSET offset`. */
  function Window(s: seq<Entry>, offset: nat, limit: nat): (w: seq<Entry>)
    ensures |w| == if offset >= |s| then 0 else if |s| - offset < limit then |s| - offset else limit
    ensures forall i :: 0 <= i < |w| ==> w[i] == s[offset + i]
  {
    if offset >= |s| then []
    else if |s| - offset < limit then s[offset..]
    else s[offset..offset + limit]
  }

  /** The JSON reply: the page and the offset of the page after it. */
  datatype Page = Page(articles: seq<Entry>, nextOffset: int)

  /** The search term: the `q` argument with surrounding whitespace stripped. */
  function SearchTerm(q: Arg): (term: string)
    ensures IsStripped(term)
  {
    Strip(ArgText(q, ""))
  }

  /** The rows the request selects from, before ordering and paging. */
  function Hits(rows: seq<Article>, q: Arg): (hits: seq<Entry>)
    ensures forall e :: e in hits <==> e in Select(rows) && Keeps(SearchTerm(q), e)
  {
    Matching(Select(rows), SearchTerm(q))
  }

  /** `page` is what `ORDER BY pub_ts DESC LIMIT limit OFFSET offset` may
      return for `hits`: the entries from position `offset` on, at most `limit`
      of them, of SOME newest-first arrangement of the hits. Each entry's
      position is pinned down by its timestamp, up to the order of entries
      sharing that timestamp. */
  ghost predicate PageOf(hits: seq<Entry>, offset: nat, limit: nat, page: seq<Entry>)
  {
    && |page| == (if offset >= |hits| then 0 else if |hits| - offset < limit then |hits| - offset else limit)
    && NewestFirst(page)
    && (forall e :: e in page ==> e in hits)
    && (forall i :: 0 <= i < |page| ==>
          CountNewer(hits, page[i].pubTs) <= offset + i < CountAtLeast(hits, page[i].pubTs))
    && (exists s :: NewestFirst(s) && multiset(s) == multiset(hits) && page == Window(s, offset, limit))
  }

  /** The largest value SQLite's 64-bit INTEGER holds. Python's `sqlite3`
      raises `OverflowError` when a bound parameter exceeds it. */
  const MaxSqlInteger := 0x7FFF_FFFF_FFFF_FFFF

  /** The outcome of a request: the JSON page, or the `OverflowError` raised
      while binding an offset SQLite cannot hold (an HTTP 500). */
  datatype Reply = Ok(page: Page) | IntegerOverflow

  /** `api_articles` on the rows of the table: a page of the hits in
      newest-first order, and `next_offset = offset + len(page)`. The limit
      never exceeds 50, so only the offset can be too large to bind. */
  function ApiArticles(rows: seq<Article>, limitArg: Arg, offsetArg: Arg, q: Arg): (r: Reply)
    ensures r.IntegerOverflow? <==> ClampOffset(offsetArg) > MaxSqlInteger
    ensures r.Ok? ==> PageOf(Hits(rows, q), ClampOffset(offsetArg), ClampLimit(limitArg), r.page.articles)
    ensures r.Ok? ==> r.page.nextOffset == ClampOffset(offsetArg) + |r.page.articles|
    ensures r.Ok? ==> |r.page.articles| <= ClampLimit(limitArg)
    ensures r.Ok? ==> forall e :: e in r.page.articles ==> e in Select(rows) && Keeps(SearchTerm(q), e)
  {
    var limit := ClampLimit(limitArg);
    var offset := ClampOffset(offsetArg);
    if offset > MaxSqlInteger then IntegerOverflow
    else
      var hits := Hits(rows, q);
      var page := Window(SortNewest(hits), offset, limit);
      SortedWindow(hits, offset, limit);
      Ok(Page(page, offset + |page|))
  }

  /** A window of the sorted hits is a page of them. */
  lemma SortedWindow(hits: seq<Entry>, offset: nat, limit: nat)
    ensures PageOf(hits, offset, limit, Window(SortNewest(hits), offset, limit))
  {
    var ordered := SortNewest(hits);
    var page := Window(ordered, offset, limit);
    WindowRanks(hits, offset, limit);
    WindowMembers(hits, offset, limit);
    WindowNewestFirst(ordered, offset, limit);
    assert NewestFirst(ordered) && multiset(ordered) == multiset(hits) && page == Window(ordered, offset, limit);
  }

  /** Each entry of a window of the sorted hits sits where its timestamp
      ranks it among the hits. */
  lemma WindowRanks(hits: seq<Entry>, offset: nat, limit: nat)
    ensures var page := Window(SortNewest(hits), offset, limit);
            forall i :: 0 <= i < |page| ==>
              CountNewer(hits, page[i].pubTs) <= offset + i < CountAtLeast(hits, page[i].pubTs)
  {
    var ordered := SortNewest(hits);
    var page := Window(ordered, offset, limit);
    forall i | 0 <= i < |page|
      ensures CountNewer(hits, page[i].pubTs) <= offset + i < CountAtLeast(hits, page[i].pubTs)
    {
      SortedRank(hits, offset + i);
    }
  }

  /** The entry at position `j` of the sorted hits ranks there among the hits. */
  lemma SortedRank(hits: seq<Entry>, j: nat)
    requires j < |hits|
    ensures j < |SortNewest(hits)|
    ensures var ts := SortNewest(hits)[j].pubTs;
            CountNewer(hits, ts) <= j < CountAtLeast(hits, ts)
  {
    var ordered := SortNewest(hits);
    var ts := ordered[j].pubTs;
    RankInNewestFirst(ordered, j);
    SortNewestCounts(hits, ts);
  }

  lemma WindowMembers(hits: seq<Entry>, offset: nat, limit: nat)
    ensures forall e :: e in Window(SortNewest(hits), offset, limit) ==> e in hits
  {
    var ordered := SortNewest(hits);
    var page := Window(ordered, offset, limit);
    forall e | e in page ensures e in hits {
      var i :| 0 <= i < |page| && page[i] == e;
      assert ordered[offset + i] in multiset(ordered);
    }
  }

  lemma WindowNewestFirst(s: seq<Entry>, offset: nat, limit: nat)
    requires NewestFirst(s)
    ensures NewestFirst(Window(s, offset, limit))
  {
    var page := Window(s, offset, limit);
    forall i, j | 0 <= i < j < |page| ensures page[i].pubTs >= page[j].pubTs {
      assert page[i] == s[offset + i] && page[j] == s[offset + j];
    }
  }

  /** The arguments' defaults parse to 20 and 0. */
  lemma DefaultsParse()
    ensures ParseInt("20") == Some(20) && ParseInt("0") == Some(0)
  {
    ShowDefaults();
    ParseShow(20);
    ParseShow(0);
  }

  lemma ShowDefaults()
    ensures Show(20) == "20" && Show(0) == "0"
    ensures |ShowNat(20)| == 2 && |ShowNat(0)| == 1
  {
    assert ShowNat(2) == [Digit(2)];
    assert ShowNat(20) == [Digit(2), Digit(0)];
  }

  // ----- lemmas -----

  lemma {:induction false} NoneNewer(s: seq<Entry>, ts: int)
    requires forall k :: 0 <= k < |s| ==> s[k].pubTs <= ts
    ensures CountNewer(s, ts) == 0
    decreases |s|
  {
    if |s| > 0 {
      NoneNewer(s[1..], ts);
    }
  }

  /** In a newest-first sequence, the entry at position `j` has at most `j`
      strictly newer entries and more than `j` entries at least as new. */
  lemma {:induction false} RankInNewestFirst(s: seq<Entry>, j: nat)
    requires NewestFirst(s) && j < |s|
    ensures CountNewer(s, s[j].pubTs) <= j < CountAtLeast(s, s[j].pubTs)
    decreases j
  {
    var ts := s[j].pubTs;
    assert NewestFirst(s[1..]);
    if j == 0 {
      NoneNewer(s[1..], ts);
    } else {
      assert s[1..][j - 1] == s[j];
      RankInNewestFirst(s[1..], j - 1);
    }
  }

  /** Paging: the page after a page starts at its `next_offset`, and the two
      together are the window of both sizes — for any one fixed arrangement. */
  lemma WindowsTile(s: seq<Entry>, offset: nat, l1: nat, l2: nat)
    ensures var w1 := Window(s, offset, l1);
            w1 + Window(s, offset + |w1|, l2) == Window(s, offset, l1 + l2)
  {
    var w1 := Window(s, offset, l1);
    var w2 := Window(s, offset + |w1|, l2);
    var w := Window(s, offset, l1 + l2);
    assert |w1 + w2| == |w|;
    forall i | 0 <= i < |w| ensures (w1 + w2)[i] == w[i] {
      if i >= |w1| {
        assert (w1 + w2)[i] == w2[i - |w1|];
      }
    }
  }

  /** Without a search term both branches of the handler agree: `LIKE '%%'`
      holds for every title, so every row is a hit. */
  lemma EmptyTermKeepsAll(rows: seq<Article>, q: Arg)
    requires SearchTerm(q) == []
    ensures Hits(rows, q) == Select(rows)
  {
    var pool := Select(rows);
    MatchingAll(pool, []);
  }

  lemma {:induction false} MatchingAll(pool: seq<Entry>, q: string)
    requires forall k :: 0 <= k < |pool| ==> Keeps(q, pool[k])
    ensures Matching(pool, q) == pool
    decreases |pool|
  {
    if |pool| > 0 {
      MatchingAll(pool[1..], q);
      assert pool == [pool[0]] + pool[1..];
    }
  }

  /** A search term whose first character is NUL, such as `?q=%00`, cuts the
      pattern down to `%`: every row is a hit, as with no term at all. */
  lemma NulTermKeepsAll(rows: seq<Article>, q: Arg)
    requires |SearchTerm(q)| > 0 && SearchTerm(q)[0] == Nul
    ensures Hits(rows, q) == Select(rows)
  {
    var t := SearchTerm(q);
    var pool := Select(rows);
    forall k | 0 <= k < |pool| ensures Keeps(t, pool[k]) {
      assert UpToNul(t) == [];
      NulTermIsSuffix(pool[k].title, t);
    }
    MatchingAll(pool, t);
  }

  /** With a wildcard-free search term, every returned title contains the term,
      ignoring ASCII case; titles that do not contain it are never returned. */
  lemma TitlesContainTerm(rows: seq<Article>, limitArg: Arg, offsetArg: Arg, q: Arg)
    requires SearchTerm(q) != [] && Literal(SearchTerm(q)) && Nul !in SearchTerm(q)
    ensures var r := ApiArticles(rows, limitArg, offsetArg, q);
            r.Ok? ==> forall i :: 0 <= i < |r.page.articles| ==>
                        Contains(Lower(UpToNul(r.page.articles[i].title)), Lower(SearchTerm(q)))
  {
    var r := ApiArticles(rows, limitArg, offsetArg, q);
    if r.Ok? {
      var page := r.page.articles;
      forall i | 0 <= i < |page| ensures Contains(Lower(UpToNul(page[i].title)), Lower(SearchTerm(q))) {
        assert page[i] in page;
        ContainsFilter(page[i].title, SearchTerm(q));
      }
    }
  }

  /** A limit written as a number from 1 to 50 is used as is. */
  lemma LimitInRange(n: int)
    requires 1 <= n <= MaxLimit
    ensures ClampLimit(Given(Show(n))) == n
  {
    assert |ShowNat(n)| <= 2;
    ParseShow(n);
  }

  /** An offset written as a non-negative number within the digit limit is used as is. */
  lemma OffsetAsWritten(n: nat)
    requires |ShowNat(n)| <= MaxStrDigits
    ensures ClampOffset(Given(Show(n))) == n
  {
    ParseShow(n);
  }

  /** An offset written as a number beyond SQLite's INTEGER range fails the
      request, whatever the table holds. */
  lemma HugeOffsetFails(rows: seq<Article>, limitArg: Arg, n: nat, q: Arg)
    requires MaxSqlInteger < n && |ShowNat(n)| <= MaxStrDigits
    ensures ApiArticles(rows, limitArg, Given(Show(n)), q) == IntegerOverflow
  {
    OffsetAsWritten(n);
  }

  // ----- paging across requests -----

  /** No two hits share a timestamp. */
  predicate DistinctTimes(s: seq<Entry>)
  {
    forall i, j :: 0 <= i < j < |s| ==> s[i].pubTs != s[j].pubTs
  }

  /** An entry newer than another is counted among those at least as new as
      itself, and the older one counts it as strictly newer. */
  lemma {:induction false} CountsOrdered(s: seq<Entry>, older: int, newer: int)
    requires older < newer
    ensures CountAtLeast(s, newer) <= CountNewer(s, older)
    decreases |s|
  {
    if |s| > 0 {
      CountsOrdered(s[1..], older, newer);
    }
  }

  /** Where no entry has timestamp `ts`, "at least as new" and "newer" agree. */
  lemma {:induction false} CountsAbsent(s: seq<Entry>, ts: int)
    requires forall k :: 0 <= k < |s| ==> s[k].pubTs != ts
    ensures CountAtLeast(s, ts) == CountNewer(s, ts)
    decreases |s|
  {
    if |s| > 0 {
      CountsAbsent(s[1..], ts);
    }
  }

  /** With distinct timestamps, an entry of `s` is the only one at its own time. */
  lemma {:induction false} CountsUnique(s: seq<Entry>, k: nat)
    requires DistinctTimes(s) && k < |s|
    ensures CountAtLeast(s, s[k].pubTs) == CountNewer(s, s[k].pubTs) + 1
    decreases k
  {
    var ts := s[k].pubTs;
    assert DistinctTimes(s[1..]);
    if k == 0 {
      CountsAbsent(s[1..], ts);
    } else {
      assert s[1..][k - 1] == s[k];
      CountsUnique(s[1..], k - 1);
    }
  }

  /** When no two hits share a timestamp, `ORDER BY pub_ts DESC` leaves no
      choice: there is exactly one page for each offset and limit. */
  lemma PageUnique(hits: seq<Entry>, offset: nat, limit: nat, p1: seq<Entry>, p2: seq<Entry>)
    requires DistinctTimes(hits)
    requires PageOf(hits, offset, limit, p1) && PageOf(hits, offset, limit, p2)
    ensures p1 == p2
  {
    forall i | 0 <= i < |p1| ensures p1[i] == p2[i] {
      assert p1[i] in p1 && p2[i] in p2;
      var a :| 0 <= a < |hits| && hits[a] == p1[i];
      var b :| 0 <= b < |hits| && hits[b] == p2[i];
      CountsUnique(hits, a);
      CountsUnique(hits, b);
      if hits[a].pubTs < hits[b].pubTs {
        CountsOrdered(hits, hits[a].pubTs, hits[b].pubTs);
      } else if hits[b].pubTs < hits[a].pubTs {
        CountsOrdered(hits, hits[b].pubTs, hits[a].pubTs);
      }
      assert a == b;
    }
  }

  /** When no two hits share a timestamp, the page fetched at a page's
      `next_offset` continues it: together they are the page of both sizes,
      so no row is repeated or skipped. */
  lemma PagesTile(hits: seq<Entry>, offset: nat, l1: nat, l2: nat, p1: seq<Entry>, next: nat, p2: seq<Entry>)
    requires DistinctTimes(hits)
    requires PageOf(hits, offset, l1, p1)
    requires next == offset + |p1| && PageOf(hits, next, l2, p2)
    ensures PageOf(hits, offset, l1 + l2, p1 + p2)
  {
    SortedPage(hits, next, l2, p2);
    SortedPage(hits, offset, l1, p1);
    TileSorted(hits, offset, l1, l2, p1, next, p2);
  }

  /** Two consecutive windows of the sorted hits form the page of both sizes. */
  lemma TileSorted(hits: seq<Entry>, offset: nat, l1: nat, l2: nat, p1: seq<Entry>, next: nat, p2: seq<Entry>)
    requires p1 == Window(SortNewest(hits), offset, l1)
    requires next == offset + |p1| && p2 == Window(SortNewest(hits), next, l2)
    ensures PageOf(hits, offset, l1 + l2, p1 + p2)
  {
    assert p1 + p2 == Window(SortNewest(hits), offset, l1 + l2) by {
      WindowsTile(SortNewest(hits), offset, l1, l2);
    }
    PageOfWindow(hits, offset, l1 + l2, p1 + p2);
  }

  /** Any sequence equal to a window of the sorted hits is a page of them. */
  lemma PageOfWindow(hits: seq<Entry>, offset: nat, limit: nat, page: seq<Entry>)
    requires page == Window(SortNewest(hits), offset, limit)
    ensures PageOf(hits, offset, limit, page)
  {
    var ordered := SortNewest(hits);
    WindowRanks(hits, offset, limit);
    WindowMembers(hits, offset, limit);
    WindowNewestFirst(ordered, offset, limit);
    assert NewestFirst(ordered) && multiset(ordered) == multiset(hits) && page == Window(ordered, offset, limit);
  }

  /** With distinct timestamps, every page is the window of the sorted hits. */
  lemma SortedPage(hits: seq<Entry>, offset: nat, limit: nat, page: seq<Entry>)
    requires DistinctTimes(hits) && PageOf(hits, offset, limit, page)
    ensures page == Window(SortNewest(hits), offset, limit)
  {
    SortedWindow(hits, offset, limit);
    PageUnique(hits, offset, limit, page, Window(SortNewest(hits), offset, limit));
  }

  /** With two hits sharing a timestamp, the first page of one entry and the
      page at its `next_offset` may both be the same entry: a tied row can be
      shown twice and its twin never. */
  lemma TiedRowMayRepeat(a: Entry, b: Entry)
    requires a != b && a.pubTs == b.pubTs
    ensures PageOf([a, b], 0, 1, [a]) && PageOf([a, b], 1, 1, [a])
  {
    var hits := [a, b];
    assert Window(hits, 0, 1) == [a];
    assert Window([b, a], 1, 1) == [a];
    assert multiset([b, a]) == multiset(hits);
    assert NewestFirst(hits) && NewestFirst([b, a]);
    assert hits[1..] == [b] && [b][1..] == [];
    assert CountNewer([b], a.pubTs) == 0 && CountAtLeast([b], a.pubTs) == 1;
    assert CountNewer(hits, a.pubTs) == 0 && CountAtLeast(hits, a.pubTs) == 2;
  }
}

=== FILE: roundtrip.dfy ===
/**
 * A round-trip check of the extractor: a renderer that writes posts as an RSS 2.0 or an
 * Atom document, and the theorem that extracting from the rendered document
 * gives back exactly the posts, in order, with the channel's own title
 * discarded.
 */
module FeedRoundTrip {
  import opened Options
  import opened Text
  import opened Scan
  import opened Feed

  /** One post as a publisher writes it: the date is the raw string. */
  datatype Post = Post(title: string, link: string, date: string)

  /** Text with no markup in it. */
  predicate Plain(v: string)
  {
    '<' !in v
  }

  /** A post whose fields the extractor reproduces: markup-free, the title and
      link non-empty and without surrounding whitespace. */
  predicate WellFormed(p: Post)
  {
    && p.title != [] && p.link != []
    && IsStripped(p.title) && IsStripped(p.link)
    && Plain(p.title) && Plain(p.link) && Plain(p.date)
  }

  /** What the extractor should produce for a post. */
  function Expected(p: Post, now: int, parseDate: DateParser): Item
  {
    Item(p.title, p.link, AsEpoch(Strip(p.date), now, parseDate))
  }

  function ExpectedAll(ps: seq<Post>, now: int, parseDate: DateParser): (items: seq<Item>)
    ensures |items| == |ps|
    ensures forall i :: 0 <= i < |ps| ==> items[i] == Expected(ps[i], now, parseDate)
  {
    if |ps| == 0 then []
    else
      var rest := ExpectedAll(ps[1..], now, parseDate);
      assert forall i :: 1 <= i < |ps| ==> ps[i] == ps[1..][i - 1];
      [Expected(ps[0], now, parseDate)] + rest
  }

  // ----- RSS 2.0 -----

  /** `<title>t</title><link>l</link><pubDate>d</pubDate>` */
  function RssFields(p: Post): string
  {
    "<title>" + p.title + TitleClose + LinkOpen + p.link + LinkClose + PubDateOpen + p.date + PubDateClose
  }

  function RssItems(ps: seq<Post>): string
  {
    if |ps| == 0 then "" else "<item>" + RssFields(ps[0]) + ItemClose + RssItems(ps[1..])
  }

  /** A whole RSS document; the channel has a title of its own. */
  function RssDocument(channelTitle: string, ps: seq<Post>): string
  {
    RssHeader(channelTitle) + RssItems(ps) + RssTrailer()
  }

  function RssHeader(channelTitle: string): string
  {
    "<rss>" + "<channel>" + "<title>" + channelTitle + TitleClose
  }

  function RssTrailer(): string
  {
    "</channel>" + "</rss>"
  }

  /** The piece of an RSS document that follows one `<item`. */
  function RssPiece(p: Post): string
  {
    ">" + RssFields(p) + ItemClose
  }

  /** The pieces that follow each `<item`; the document's trailer rides on the last. */
  function RssPieces(ps: seq<Post>): (pieces: seq<string>)
    requires |ps| >= 1
    ensures |pieces| == |ps|
    decreases |ps|
  {
    if |ps| == 1 then [RssPiece(ps[0]) + RssTrailer()]
    else [RssPiece(ps[0])] + RssPieces(ps[1..])
  }

  lemma {:induction false} JoinRssPieces(head: string, ps: seq<Post>)
    requires |ps| >= 1
    ensures Join([head] + RssPieces(ps), ItemOpen) == head + RssItems(ps) + RssTrailer()
    decreases |ps|
  {
    RssItemsCons(ps);
    if |ps| == 1 {
      JoinLast(head, RssPiece(ps[0]), RssItems(ps[1..]), RssTrailer(), ItemOpen);
    } else {
      JoinRssPieces(RssPiece(ps[0]), ps[1..]);
      JoinStep(head, RssPiece(ps[0]), RssPieces(ps[1..]), RssItems(ps[1..]), RssTrailer(), ItemOpen);
    }
  }

  lemma JoinLast(head: string, x: string, r: string, trailer: string, sep: string)
    requires r == ""
    ensures Join([head] + [x + trailer], sep) == head + (sep + x + r) + trailer
  {
    JoinCons(head, [x + trailer], sep);
  }

  lemma JoinStep(head: string, x: string, more: seq<string>, r: string, trailer: string, sep: string)
    requires Join([x] + more, sep) == x + r + trailer
    ensures Join([head] + ([x] + more), sep) == head + (sep + x + r) + trailer
  {
    JoinCons(head, [x] + more, sep);
  }

  lemma RssItemsCons(ps: seq<Post>)
    requires |ps| >= 1
    ensures RssItems(ps) == ItemOpen + RssPiece(ps[0]) + RssItems(ps[1..])
  {
    ItemTagSplits(RssFields(ps[0]), RssItems(ps[1..]));
  }

  lemma ItemTagSplits(fields: string, rest: string)
    ensures "<item>" + fields + ItemClose + rest == ItemOpen + (">" + fields + ItemClose) + rest
  {
    assert "<item>" == ItemOpen + ">";
  }

  /** The text before a field-value in an RSS item, up to and including its
      opening tag, in three stages. */
  lemma RssMarkupAvoids(p: Post)
    requires WellFormed(p)
    ensures Avoids(">" + "<title>" + p.title + TitleClose, LinkOpen)
    ensures Avoids(">" + "<title>" + p.title + TitleClose + LinkOpen + p.link + LinkClose, PubDateOpen)
    ensures Avoids(">" + RssFields(p), ItemClose)
    ensures Avoids(RssPiece(p), ItemOpen)
    ensures Avoids(RssTrailer(), ItemOpen)
  {
    // <link>
    FreeTextAvoids(">", LinkOpen);
    TagAvoids("<title>", LinkOpen, 1);
    FreeTextAvoids(p.title, LinkOpen);
    TagAvoids(TitleClose, LinkOpen, 1);
    ConcatAvoids(">", "<title>", LinkOpen);
    ConcatAvoids(">" + "<title>", p.title, LinkOpen);
    ConcatAvoids(">" + "<title>" + p.title, TitleClose, LinkOpen);
    // <pubDate>
    var pre := ">" + "<title>" + p.title + TitleClose;
    FreeTextAvoids(">", PubDateOpen);
    TagAvoids("<title>", PubDateOpen, 1);
    FreeTextAvoids(p.title, PubDateOpen);
    TagAvoids(TitleClose, PubDateOpen, 1);
    ConcatAvoids(">", "<title>", PubDateOpen);
    ConcatAvoids(">" + "<title>", p.title, PubDateOpen);
    ConcatAvoids(">" + "<title>" + p.title, TitleClose, PubDateOpen);
    TagAvoids(LinkOpen, PubDateOpen, 1);
    FreeTextAvoids(p.link, PubDateOpen);
    TagAvoids(LinkClose, PubDateOpen, 1);
    ConcatAvoids(pre, LinkOpen, PubDateOpen);
    ConcatAvoids(pre + LinkOpen, p.link, PubDateOpen);
    ConcatAvoids(pre + LinkOpen + p.link, LinkClose, PubDateOpen);
    // </item>
    RssFieldsAvoidClose(p, ItemClose);
    FreeTextAvoids(">", ItemClose);
    ConcatAvoids(">", RssFields(p), ItemClose);
    // <item
    RssFieldsAvoid(p, ItemOpen, 1);
    FreeTextAvoids(">", ItemOpen);
    ConcatAvoids(">", RssFields(p), ItemOpen);
    TagAvoids(ItemClose, ItemOpen, 1);
    ConcatAvoids(">" + RssFields(p), ItemClose, ItemOpen);
    TagAvoids("</channel>", ItemOpen, 1);
    TagAvoids("</rss>", ItemOpen, 1);
    ConcatAvoids("</channel>", "</rss>", ItemOpen);
  }

  /** The fields of an RSS item avoid any tag-shaped pattern that disagrees
      with each of their six tags at index `k`. */
  lemma RssFieldsAvoid(p: Post, pat: string, k: nat)
    requires WellFormed(p) && |pat| > k && pat[0] == '<' && 1 <= k <= 2
    requires "<title>"[k] != pat[k] && TitleClose[k] != pat[k]
    requires LinkOpen[k] != pat[k] && LinkClose[k] != pat[k]
    requires PubDateOpen[k] != pat[k] && PubDateClose[k] != pat[k]
    ensures Avoids(RssFields(p), pat)
  {
    TagAvoids("<title>", pat, k);
    FreeTextAvoids(p.title, pat);
    TagAvoids(TitleClose, pat, k);
    TagAvoids(LinkOpen, pat, k);
    FreeTextAvoids(p.link, pat);
    TagAvoids(LinkClose, pat, k);
    TagAvoids(PubDateOpen, pat, k);
    FreeTextAvoids(p.date, pat);
    TagAvoids(PubDateClose, pat, k);
    var a := "<title>" + p.title;
    ConcatAvoids("<title>", p.title, pat);
    ConcatAvoids(a, TitleClose, pat);
    ConcatAvoids(a + TitleClose, LinkOpen, pat);
    ConcatAvoids(a + TitleClose + LinkOpen, p.link, pat);
    ConcatAvoids(a + TitleClose + LinkOpen + p.link, LinkClose, pat);
    ConcatAvoids(a + TitleClose + LinkOpen + p.link + LinkClose, PubDateOpen, pat);
    ConcatAvoids(a + TitleClose + LinkOpen + p.link + LinkClose + PubDateOpen, p.date, pat);
    ConcatAvoids(a + TitleClose + LinkOpen + p.link + LinkClose + PubDateOpen + p.date, PubDateClose, pat);
  }

  /** The fields of an RSS item hold no closing tag other than their own three. */
  lemma RssFieldsAvoidClose(p: Post, pat: string)
    requires WellFormed(p) && |pat| > 2 && pat[0] == '<' && pat[1] == '/'
    requires TitleClose[2] != pat[2] && LinkClose[2] != pat[2] && PubDateClose[2] != pat[2]
    ensures Avoids(RssFields(p), pat)
  {
    TagAvoids("<title>", pat, 1);
    FreeTextAvoids(p.title, pat);
    TagAvoids(TitleClose, pat, 2);
    TagAvoids(LinkOpen, pat, 1);
    FreeTextAvoids(p.link, pat);
    TagAvoids(LinkClose, pat, 2);
    TagAvoids(PubDateOpen, pat, 1);
    FreeTextAvoids(p.date, pat);
    TagAvoids(PubDateClose, pat, 2);
    var a := "<title>" + p.title;
    ConcatAvoids("<title>", p.title, pat);
    ConcatAvoids(a, TitleClose, pat);
    ConcatAvoids(a + TitleClose, LinkOpen, pat);
    ConcatAvoids(a + TitleClose + LinkOpen, p.link, pat);
    ConcatAvoids(a + TitleClose + LinkOpen + p.link, LinkClose, pat);
    ConcatAvoids(a + TitleClose + LinkOpen + p.link + LinkClose, PubDateOpen, pat);
    ConcatAvoids(a + TitleClose + LinkOpen + p.link + LinkClose + PubDateOpen, p.date, pat);
    ConcatAvoids(a + TitleClose + LinkOpen + p.link + LinkClose + PubDateOpen + p.date, PubDateClose, pat);
  }

  /** One RSS piece, whatever follows its `</item>`, parses to the expected item. */
  lemma RssPieceParses(p: Post, tail: string, now: int, parseDate: DateParser)
    requires WellFormed(p)
    ensures ParseItem(RssPiece(p) + tail, now, parseDate) == Some(Expected(p, now, parseDate))
  {
    RssBodyIsSegment(p, tail);
    RssTitle(p);
    RssLink(p);
    RssDate(p, now, parseDate);
  }

  lemma RssBodyIsSegment(p: Post, tail: string)
    requires WellFormed(p)
    ensures ItemBody(RssPiece(p) + tail) == ">" + RssFields(p)
  {
    RssMarkupAvoids(p);
    var body := ">" + RssFields(p);
    assert RssPiece(p) + tail == body + ItemClose + tail;
    FirstAfterAvoiding(body, ItemClose, tail);
    CutAt(body, ItemClose, tail);
  }

  lemma RssTitle(p: Post)
    requires WellFormed(p)
    ensures ExtractTitle(">" + RssFields(p)) == p.title
  {
    RssTitleShape(p);
    FreeTextAvoids(">", TitleOpen);
    FreeTextAvoids(p.title, TitleClose);
    AvoidsExcludes(">", TitleOpen);
    AvoidsExcludes(p.title, TitleClose);
    TitleBetweenTags(">", "", p.title, RssAfterTitle(p));
    StripOfStripped(p.title);
  }

  /** What follows an RSS post's title. */
  function RssAfterTitle(p: Post): string
  {
    LinkOpen + p.link + LinkClose + PubDateOpen + p.date + PubDateClose
  }

  lemma RssTitleShape(p: Post)
    ensures ">" + RssFields(p) == ">" + TitleOpen + "" + ">" + p.title + TitleClose + RssAfterTitle(p)
  {
    RssRegroup(p);
    assert ">" + "<title>" == ">" + TitleOpen + "" + ">";
  }

  lemma RssRegroup(p: Post)
    ensures var whole := ">" + RssFields(p);
            && whole == ">" + "<title>" + p.title + TitleClose + RssAfterTitle(p)
            && whole == RssBeforeLink(p) + LinkOpen + p.link + LinkClose + RssAfterLink(p)
            && whole == RssBeforeDate(p) + PubDateOpen + p.date + PubDateClose + ""
  {
    Regroup10(">", "<title>", p.title, TitleClose, LinkOpen, p.link, LinkClose, PubDateOpen, p.date, PubDateClose);
  }

  /** Ten strings in a row, grouped the ways the field lemmas cut them. */
  lemma Regroup10(g: string, o: string, t: string, tc: string, lo: string, l: string, lc: string,
                  po: string, d: string, pc: string)
    ensures var whole := g + (o + t + tc + lo + l + lc + po + d + pc);
            && whole == g + o + t + tc + (lo + l + lc + po + d + pc)
            && whole == g + o + t + tc + lo + l + lc + (po + d + pc)
            && whole == g + o + t + tc + lo + l + lc + po + d + pc + ""
  {
  }

  lemma RssLink(p: Post)
    requires WellFormed(p)
    ensures ExtractLink(">" + RssFields(p)) == p.link
  {
    RssMarkupAvoids(p);
    RssLinkShape(p);
    FreeTextAvoids(p.link, LinkClose);
    AvoidsExcludes(RssBeforeLink(p), LinkOpen);
    AvoidsExcludes(p.link, LinkClose);
    LinkElementWins(RssBeforeLink(p), p.link, RssAfterLink(p));
    StripOfStripped(p.link);
  }

  /** What precedes and what follows an RSS post's `<link>` element. */
  function RssBeforeLink(p: Post): string
  {
    ">" + "<title>" + p.title + TitleClose
  }

  function RssAfterLink(p: Post): string
  {
    PubDateOpen + p.date + PubDateClose
  }

  lemma RssLinkShape(p: Post)
    ensures ">" + RssFields(p) == RssBeforeLink(p) + LinkOpen + p.link + LinkClose + RssAfterLink(p)
  {
    RssRegroup(p);
  }

  lemma RssDate(p: Post, now: int, parseDate: DateParser)
    requires WellFormed(p)
    ensures ExtractTimestamp(">" + RssFields(p), now, parseDate) == AsEpoch(Strip(p.date), now, parseDate)
  {
    RssMarkupAvoids(p);
    RssDateShape(p);
    FreeTextAvoids(p.date, PubDateClose);
    AvoidsExcludes(RssBeforeDate(p), PubDateOpen);
    AvoidsExcludes(p.date, PubDateClose);
    PubDateWins(RssBeforeDate(p), p.date, "", now, parseDate);
  }

  /** What precedes an RSS post's `<pubDate>` element. */
  function RssBeforeDate(p: Post): string
  {
    ">" + "<title>" + p.title + TitleClose + LinkOpen + p.link + LinkClose
  }

  lemma RssDateShape(p: Post)
    ensures ">" + RssFields(p) == RssBeforeDate(p) + PubDateOpen + p.date + PubDateClose + ""
  {
    RssRegroup(p);
  }

  lemma RssHeaderAvoids(channelTitle: string, pat: string)
    requires Plain(channelTitle) && |pat| > 1 && pat[0] == '<'
    requires pat[1] != 'r' && pat[1] != 'c' && pat[1] != 't' && pat[1] != '/'
    ensures Avoids(RssHeader(channelTitle), pat)
  {
    TagAvoids("<rss>", pat, 1);
    TagAvoids("<channel>", pat, 1);
    TagAvoids("<title>", pat, 1);
    FreeTextAvoids(channelTitle, pat);
    TagAvoids(TitleClose, pat, 1);
    ConcatAvoids("<rss>", "<channel>", pat);
    ConcatAvoids("<rss>" + "<channel>", "<title>", pat);
    ConcatAvoids("<rss>" + "<channel>" + "<title>", channelTitle, pat);
    ConcatAvoids("<rss>" + "<channel>" + "<title>" + channelTitle, TitleClose, pat);
  }

  lemma RssTrailerAvoids(pat: string)
    requires |pat| > 1 && pat[0] == '<' && pat[1] != '/'
    ensures Avoids(RssTrailer(), pat)
  {
    TagAvoids("</channel>", pat, 1);
    TagAvoids("</rss>", pat, 1);
    ConcatAvoids("</channel>", "</rss>", pat);
  }

  /** No piece of a rendered RSS document holds another `<item`. */
  lemma {:induction false} RssPiecesAvoid(ps: seq<Post>)
    requires |ps| >= 1 && forall i :: 0 <= i < |ps| ==> WellFormed(ps[i])
    ensures forall i :: 0 <= i < |ps| ==> Avoids(RssPieces(ps)[i], ItemOpen)
    decreases |ps|
  {
    RssMarkupAvoids(ps[0]);
    if |ps| == 1 {
      RssTrailerAvoids(ItemOpen);
      ConcatAvoids(RssPiece(ps[0]), RssTrailer(), ItemOpen);
    } else {
      RssPiecesAvoid(ps[1..]);
      assert forall i :: 1 <= i < |ps| ==> RssPieces(ps)[i] == RssPieces(ps[1..])[i - 1];
    }
  }

  /** The pieces of a rendered RSS document parse to the expected items. */
  lemma {:induction false} RssPiecesParse(ps: seq<Post>, now: int, parseDate: DateParser)
    requires |ps| >= 1 && forall i :: 0 <= i < |ps| ==> WellFormed(ps[i])
    ensures ParseItems(RssPieces(ps), now, parseDate) == ExpectedAll(ps, now, parseDate)
    decreases |ps|
  {
    if |ps| == 1 {
      RssLastPieceParses(ps, now, parseDate);
    } else {
      RssPiecesParse(ps[1..], now, parseDate);
      RssPieceThenRest(ps, now, parseDate);
    }
  }

  lemma RssLastPieceParses(ps: seq<Post>, now: int, parseDate: DateParser)
    requires |ps| == 1 && WellFormed(ps[0])
    ensures ParseItems(RssPieces(ps), now, parseDate) == ExpectedAll(ps, now, parseDate)
  {
    var pieces := RssPieces(ps);
    RssPieceParses(ps[0], RssTrailer(), now, parseDate);
    ParseItemsStep(pieces, now, parseDate, Expected(ps[0], now, parseDate));
    assert pieces[1..] == [];
  }

  lemma RssPieceThenRest(ps: seq<Post>, now: int, parseDate: DateParser)
    requires |ps| >= 2 && WellFormed(ps[0])
    requires ParseItems(RssPieces(ps[1..]), now, parseDate) == ExpectedAll(ps[1..], now, parseDate)
    ensures ParseItems(RssPieces(ps), now, parseDate) == ExpectedAll(ps, now, parseDate)
  {
    var pieces := RssPieces(ps);
    RssPieceParses(ps[0], "", now, parseDate);
    assert RssPiece(ps[0]) + "" == pieces[0];
    ParseItemsStep(pieces, now, parseDate, Expected(ps[0], now, parseDate));
    assert pieces[1..] == RssPieces(ps[1..]);
  }

  /** Extracting from a rendered RSS document gives back its posts, in order;
      the channel's own `<title>` is not an item. */
  lemma RssRoundTrip(channelTitle: string, ps: seq<Post>, now: int, parseDate: DateParser)
    requires Plain(channelTitle)
    requires forall i :: 0 <= i < |ps| ==> WellFormed(ps[i])
    ensures ExtractItems(RssDocument(channelTitle, ps), now, parseDate) == ExpectedAll(ps, now, parseDate)
  {
    if |ps| == 0 {
      RssEmptySegments(channelTitle);
    } else {
      RssSegments(channelTitle, ps);
      RssPiecesParse(ps, now, parseDate);
    }
  }

  /** A channel without items has no segments. */
  lemma RssEmptySegments(channelTitle: string)
    requires Plain(channelTitle)
    ensures Segments(RssDocument(channelTitle, [])) == []
  {
    var header := RssHeader(channelTitle);
    var doc := RssDocument(channelTitle, []);
    RssHeaderAvoids(channelTitle, ItemOpen);
    RssHeaderAvoids(channelTitle, EntryOpen);
    RssTrailerAvoids(ItemOpen);
    RssTrailerAvoids(EntryOpen);
    ConcatAvoids(header, RssTrailer(), ItemOpen);
    ConcatAvoids(header, RssTrailer(), EntryOpen);
    assert doc == header + RssTrailer();
    AvoidsExcludes(doc, ItemOpen);
    AvoidsExcludes(doc, EntryOpen);
  }

  /** The segments of a rendered RSS document are its item pieces. */
  lemma RssSegments(channelTitle: string, ps: seq<Post>)
    requires Plain(channelTitle) && |ps| > 0
    requires forall i :: 0 <= i < |ps| ==> WellFormed(ps[i])
    ensures Segments(RssDocument(channelTitle, ps)) == RssPieces(ps)
  {
    RssSplits(channelTitle, ps);
    SplitsIntoFreely(RssDocument(channelTitle, ps), RssHeader(channelTitle), RssPieces(ps), ItemOpen);
    ItemSegments(RssDocument(channelTitle, ps), RssHeader(channelTitle), RssPieces(ps));
  }

  /** A rendered RSS document is its header and item pieces joined by `<item`,
      none of them holding `<item` itself. */
  lemma RssSplits(channelTitle: string, ps: seq<Post>)
    requires Plain(channelTitle) && |ps| > 0
    requires forall i :: 0 <= i < |ps| ==> WellFormed(ps[i])
    ensures SplitsInto(RssDocument(channelTitle, ps), RssHeader(channelTitle), RssPieces(ps), ItemOpen)
  {
    RssPartsAvoid(channelTitle, ps);
    RssDocumentIsJoin(channelTitle, ps);
  }

  lemma RssDocumentIsJoin(channelTitle: string, ps: seq<Post>)
    requires |ps| > 0
    ensures RssDocument(channelTitle, ps) == Join([RssHeader(channelTitle)] + RssPieces(ps), ItemOpen)
  {
    JoinRssPieces(RssHeader(channelTitle), ps);
  }

  /** Neither the header nor any piece of a rendered RSS document holds `<item`. */
  lemma RssPartsAvoid(channelTitle: string, ps: seq<Post>)
    requires Plain(channelTitle) && |ps| > 0
    requires forall i :: 0 <= i < |ps| ==> WellFormed(ps[i])
    ensures Avoids(RssHeader(channelTitle), ItemOpen)
    ensures forall i :: 0 <= i < |ps| ==> Avoids(RssPieces(ps)[i], ItemOpen)
  {
    RssHeaderAvoids(channelTitle, ItemOpen);
    RssPiecesAvoid(ps);
  }

  // ----- Atom -----

  const AtomLinkOpen := "<link href=\""
  const AtomLinkEnd := "\"/>"

  /** An Atom post additionally keeps `=` out of its title (so that the first
      `href=` is the link's) and double quotes out of its link. */
  predicate AtomWellFormed(p: Post)
  {
    WellFormed(p) && '=' !in p.title && '"' !in p.link
  }

  /** `<title>t</title><link href="l"/><updated>d</updated>` */
  function AtomFields(p: Post): string
  {
    "<title>" + p.title + TitleClose + AtomLinkOpen + p.link + AtomLinkEnd + UpdatedOpen + p.date + UpdatedClose
  }

  function AtomEntries(ps: seq<Post>): string
  {
    if |ps| == 0 then "" else "<entry>" + AtomFields(ps[0]) + EntryClose + AtomEntries(ps[1..])
  }

  function AtomHeader(feedTitle: string): string
  {
    "<feed>" + "<title>" + feedTitle + TitleClose
  }

  function AtomTrailer(): string
  {
    "</feed>"
  }

  /** A whole Atom document; the feed has a title of its own. */
  function AtomDocument(feedTitle: string, ps: seq<Post>): string
  {
    AtomHeader(feedTitle) + AtomEntries(ps) + AtomTrailer()
  }

  function AtomPiece(p: Post): string
  {
    ">" + AtomFields(p) + EntryClose
  }

  function AtomPieces(ps: seq<Post>): (pieces: seq<string>)
    requires |ps| >= 1
    ensures |pieces| == |ps|
    decreases |ps|
  {
    if |ps| == 1 then [AtomPiece(ps[0]) + AtomTrailer()]
    else [AtomPiece(ps[0])] + AtomPieces(ps[1..])
  }

  lemma EntryTagSplits(fields: string, rest: string)
    ensures "<entry>" + fields + EntryClose + rest == EntryOpen + (">" + fields + EntryClose) + rest
  {
    assert "<entry>" == EntryOpen + ">";
  }

  lemma {:induction false} JoinAtomPieces(head: string, ps: seq<Post>)
    requires |ps| >= 1
    ensures Join([head] + AtomPieces(ps), EntryOpen) == head + AtomEntries(ps) + AtomTrailer()
    decreases |ps|
  {
    EntryTagSplits(AtomFields(ps[0]), AtomEntries(ps[1..]));
    if |ps| == 1 {
      JoinLast(head, AtomPiece(ps[0]), AtomEntries(ps[1..]), AtomTrailer(), EntryOpen);
    } else {
      JoinAtomPieces(AtomPiece(ps[0]), ps[1..]);
      JoinStep(head, AtomPiece(ps[0]), AtomPieces(ps[1..]), AtomEntries(ps[1..]), AtomTrailer(), EntryOpen);
    }
  }

  /** Atom fields avoid opening patterns that start differently from their tags. */
  lemma AtomFieldsAvoidOpen(p: Post, pat: string)
    requires AtomWellFormed(p) && |pat| > 2 && pat[0] == '<' && pat[1] !in "/tlu"
    ensures Avoids(AtomFields(p), pat)
  {
    AtomFieldsAvoidAt(p, pat, 1, 1);
  }

  /** Atom fields avoid closing patterns other than their own. */
  lemma AtomFieldsAvoidClose(p: Post, pat: string)
    requires AtomWellFormed(p) && |pat| > 2 && pat[0] == '<' && pat[1] == '/' && pat[2] !in "tu"
    ensures Avoids(AtomFields(p), pat)
  {
    AtomFieldsAvoidAt(p, pat, 1, 2);
  }

  /** The six tags of Atom fields, opening tags told apart from `pat` at `ko`,
      closing tags at `kc`. */
  lemma AtomFieldsAvoidAt(p: Post, pat: string, ko: nat, kc: nat)
    requires AtomWellFormed(p) && |pat| > 2 && pat[0] == '<' && 1 <= ko <= 5 && 1 <= kc <= 2
    requires ko < |pat| && kc < |pat|
    requires "<title>"[ko] != pat[ko] && AtomLinkOpen[ko] != pat[ko] && UpdatedOpen[ko] != pat[ko]
    requires TitleClose[kc] != pat[kc] && UpdatedClose[kc] != pat[kc]
    ensures Avoids(AtomFields(p), pat)
  {
    TagAvoids("<title>", pat, ko);
    FreeTextAvoids(p.title, pat);
    TagAvoids(TitleClose, pat, kc);
    TagAvoids(AtomLinkOpen, pat, ko);
    FreeTextAvoids(p.link, pat);
    FreeTextAvoids(AtomLinkEnd, pat);
    TagAvoids(UpdatedOpen, pat, ko);
    FreeTextAvoids(p.date, pat);
    TagAvoids(UpdatedClose, pat, kc);
    var a := "<title>" + p.title;
    ConcatAvoids("<title>", p.title, pat);
    ConcatAvoids(a, TitleClose, pat);
    ConcatAvoids(a + TitleClose, AtomLinkOpen, pat);
    ConcatAvoids(a + TitleClose + AtomLinkOpen, p.link, pat);
    ConcatAvoids(a + TitleClose + AtomLinkOpen + p.link, AtomLinkEnd, pat);
    ConcatAvoids(a + TitleClose + AtomLinkOpen + p.link + AtomLinkEnd, UpdatedOpen, pat);
    ConcatAvoids(a + TitleClose + AtomLinkOpen + p.link + AtomLinkEnd + UpdatedOpen, p.date, pat);
    ConcatAvoids(a + TitleClose + AtomLinkOpen + p.link + AtomLinkEnd + UpdatedOpen + p.date, UpdatedClose, pat);
  }

  /** A piece of an Atom document holds no `<item`, no `<entry` and no `</item>`. */
  lemma AtomPieceAvoids(p: Post, tail: string)
    requires AtomWellFormed(p) && (tail == "" || tail == AtomTrailer())
    ensures Avoids(AtomPiece(p) + tail, ItemOpen)
    ensures Avoids(AtomPiece(p) + tail, EntryOpen)
    ensures Avoids(AtomPiece(p) + tail, ItemClose)
  {
    FreeTextAvoids("", ItemOpen);
    FreeTextAvoids("", EntryOpen);
    FreeTextAvoids("", ItemClose);
    TagAvoids(AtomTrailer(), ItemOpen, 1);
    TagAvoids(AtomTrailer(), EntryOpen, 1);
    TagAvoids(AtomTrailer(), ItemClose, 2);
    AtomPieceAvoidsPattern(p, tail, ItemOpen, 1);
    AtomPieceAvoidsPattern(p, tail, EntryOpen, 1);
    AtomPieceAvoidsPattern(p, tail, ItemClose, 2);
  }

  lemma AtomPieceAvoidsPattern(p: Post, tail: string, pat: string, k: nat)
    requires AtomWellFormed(p) && |pat| > 2 && pat[0] == '<' && 1 <= k <= 2
    requires (k == 1 && pat[1] !in "/tlu") || (k == 2 && pat[1] == '/' && pat[2] !in "tue")
    requires Avoids(tail, pat)
    ensures Avoids(AtomPiece(p) + tail, pat)
  {
    if k == 1 {
      AtomFieldsAvoidOpen(p, pat);
    } else {
      AtomFieldsAvoidClose(p, pat);
    }
    FreeTextAvoids(">", pat);
    TagAvoids(EntryClose, pat, k);
    ConcatAvoids(">", AtomFields(p), pat);
    ConcatAvoids(">" + AtomFields(p), EntryClose, pat);
    ConcatAvoids(AtomPiece(p), tail, pat);
  }

  /** The segment of an Atom piece is its fields: `</entry>` ends it. */
  lemma AtomBodyIsSegment(p: Post, tail: string)
    requires AtomWellFormed(p) && (tail == "" || tail == AtomTrailer())
    ensures ItemBody(AtomPiece(p) + tail) == ">" + AtomFields(p)
  {
    AtomPieceAvoids(p, tail);
    AvoidsExcludes(AtomPiece(p) + tail, ItemClose);
    var body := ">" + AtomFields(p);
    AtomFieldsAvoidClose(p, EntryClose);
    FreeTextAvoids(">", EntryClose);
    ConcatAvoids(">", AtomFields(p), EntryClose);
    assert AtomPiece(p) + tail == body + EntryClose + tail;
    FirstAfterAvoiding(body, EntryClose, tail);
    CutAt(body, EntryClose, tail);
  }

  lemma AtomTitle(p: Post)
    requires AtomWellFormed(p)
    ensures ExtractTitle(">" + AtomFields(p)) == p.title
  {
    AtomTitleShape(p);
    FreeTextAvoids(">", TitleOpen);
    FreeTextAvoids(p.title, TitleClose);
    AvoidsExcludes(">", TitleOpen);
    AvoidsExcludes(p.title, TitleClose);
    TitleBetweenTags(">", "", p.title, AtomAfterTitle(p));
    StripOfStripped(p.title);
  }

  /** What follows an Atom post's title. */
  function AtomAfterTitle(p: Post): string
  {
    AtomLinkOpen + p.link + AtomLinkEnd + UpdatedOpen + p.date + UpdatedClose
  }

  lemma AtomTitleShape(p: Post)
    ensures ">" + AtomFields(p) == ">" + TitleOpen + "" + ">" + p.title + TitleClose + AtomAfterTitle(p)
  {
    Regroup10(">", "<title>", p.title, TitleClose, AtomLinkOpen, p.link, AtomLinkEnd, UpdatedOpen, p.date, UpdatedClose);
    assert ">" + "<title>" == ">" + TitleOpen + "" + ">";
  }

  /** The text of an Atom segment before its `href=`. */
  function AtomBeforeHref(p: Post): string
  {
    ">" + "<title>" + p.title + TitleClose + "<link "
  }

  /** The text of an Atom segment after the link's closing quote. */
  function AtomAfterLink(p: Post): string
  {
    "/>" + UpdatedOpen + p.date + UpdatedClose
  }

  lemma AtomLinkShape(p: Post)
    ensures ">" + AtomFields(p) == AtomBeforeHref(p) + HrefMark + ("" + Quote + p.link + Quote + AtomAfterLink(p))
  {
    assert AtomLinkOpen == "<link " + HrefMark + Quote;
    assert AtomLinkEnd == Quote + "/>";
    HrefRegroupAll(">", "<title>", p.title, TitleClose, "<link ", HrefMark, Quote, p.link, Quote, "/>",
                   UpdatedOpen, p.date, UpdatedClose);
  }

  /** The thirteen parts of an Atom segment, grouped as the link lemma cuts them. */
  lemma HrefRegroupAll(g: string, o: string, t: string, tc: string, lk: string, h: string, q1: string,
                       l: string, q2: string, sl: string, uo: string, d: string, uc: string)
    ensures g + (o + t + tc + (lk + h + q1) + l + (q2 + sl) + uo + d + uc)
            == g + o + t + tc + lk + h + ("" + q1 + l + q2 + (sl + uo + d + uc))
  {
  }

  /** An Atom segment has no `<link>` element. */
  lemma AtomNoLinkElement(p: Post)
    requires AtomWellFormed(p)
    ensures !Contains(">" + AtomFields(p), LinkOpen)
  {
    AtomFieldsAvoidAt(p, LinkOpen, 5, 1);
    FreeTextAvoids(">", LinkOpen);
    ConcatAvoids(">", AtomFields(p), LinkOpen);
    AvoidsExcludes(">" + AtomFields(p), LinkOpen);
  }

  lemma AtomLink(p: Post)
    requires AtomWellFormed(p)
    ensures ExtractLink(">" + AtomFields(p)) == p.link
  {
    var before := AtomBeforeHref(p);
    var rest := AtomAfterLink(p);
    AtomNoLinkElement(p);
    AtomLinkShape(p);
    AtomHrefIsFirst(p, before, "" + Quote + p.link + Quote + rest);
    HrefRegroup(before, "", p.link, rest);
    LinkFromHref(before, "", p.link, rest);
    StripOfStripped(p.link);
  }

  lemma HrefRegroup(b: string, a: string, v: string, rest: string)
    ensures b + HrefMark + (a + Quote + v + Quote + rest) == b + HrefMark + a + Quote + v + Quote + rest
  {
  }

  lemma AtomHrefIsFirst(p: Post, before: string, x: string)
    requires AtomWellFormed(p) && before == ">" + "<title>" + p.title + TitleClose + "<link "
    ensures FirstAt(before + HrefMark + x, HrefMark, |before|)
  {
    assert '=' !in before;
    FirstAfterLastCharFree(before, HrefMark, x);
  }

  lemma AtomDate(p: Post, now: int, parseDate: DateParser)
    requires AtomWellFormed(p)
    ensures ExtractTimestamp(">" + AtomFields(p), now, parseDate) == AsEpoch(Strip(p.date), now, parseDate)
  {
    var seg := ">" + AtomFields(p);
    AtomFieldsAvoidOpen(p, PubDateOpen);
    FreeTextAvoids(">", PubDateOpen);
    ConcatAvoids(">", AtomFields(p), PubDateOpen);
    AvoidsExcludes(seg, PubDateOpen);
    var before := ">" + "<title>" + p.title + TitleClose + AtomLinkOpen + p.link + AtomLinkEnd;
    assert seg == before + UpdatedOpen + p.date + UpdatedClose + "";
    AtomBeforeDateAvoids(p, before);
    FreeTextAvoids(p.date, UpdatedClose);
    AvoidsExcludes(before, UpdatedOpen);
    AvoidsExcludes(p.date, UpdatedClose);
    UpdatedIsFallback(before, p.date, "", now, parseDate);
  }

  lemma AtomBeforeDateAvoids(p: Post, before: string)
    requires AtomWellFormed(p)
    requires before == ">" + "<title>" + p.title + TitleClose + AtomLinkOpen + p.link + AtomLinkEnd
    ensures Avoids(before, UpdatedOpen)
  {
    FreeTextAvoids(">", UpdatedOpen);
    TagAvoids("<title>", UpdatedOpen, 1);
    FreeTextAvoids(p.title, UpdatedOpen);
    TagAvoids(TitleClose, UpdatedOpen, 1);
    TagAvoids(AtomLinkOpen, UpdatedOpen, 1);
    FreeTextAvoids(p.link, UpdatedOpen);
    FreeTextAvoids(AtomLinkEnd, UpdatedOpen);
    ConcatAvoids(">", "<title>", UpdatedOpen);
    ConcatAvoids(">" + "<title>", p.title, UpdatedOpen);
    ConcatAvoids(">" + "<title>" + p.title, TitleClose, UpdatedOpen);
    ConcatAvoids(">" + "<title>" + p.title + TitleClose, AtomLinkOpen, UpdatedOpen);
    ConcatAvoids(">" + "<title>" + p.title + TitleClose + AtomLinkOpen, p.link, UpdatedOpen);
    ConcatAvoids(">" + "<title>" + p.title + TitleClose + AtomLinkOpen + p.link, AtomLinkEnd, UpdatedOpen);
  }

  /** One Atom piece parses to the expected item. */
  lemma AtomPieceParses(p: Post, tail: string, now: int, parseDate: DateParser)
    requires AtomWellFormed(p) && (tail == "" || tail == AtomTrailer())
    ensures ParseItem(AtomPiece(p) + tail, now, parseDate) == Some(Expected(p, now, parseDate))
  {
    AtomBodyIsSegment(p, tail);
    AtomTitle(p);
    AtomLink(p);
    AtomDate(p, now, parseDate);
  }

  lemma AtomHeaderAvoids(feedTitle: string, pat: string)
    requires Plain(feedTitle) && |pat| > 1 && pat[0] == '<'
    requires pat[1] != 'f' && pat[1] != 't' && pat[1] != '/'
    ensures Avoids(AtomHeader(feedTitle), pat)
  {
    TagAvoids("<feed>", pat, 1);
    TagAvoids("<title>", pat, 1);
    FreeTextAvoids(feedTitle, pat);
    TagAvoids(TitleClose, pat, 1);
    ConcatAvoids("<feed>", "<title>", pat);
    ConcatAvoids("<feed>" + "<title>", feedTitle, pat);
    ConcatAvoids("<feed>" + "<title>" + feedTitle, TitleClose, pat);
  }

  /** No piece of a rendered Atom document holds `<item` or another `<entry`. */
  lemma {:induction false} AtomPiecesAvoid(ps: seq<Post>, pat: string)
    requires |ps| >= 1 && forall i :: 0 <= i < |ps| ==> AtomWellFormed(ps[i])
    requires pat == ItemOpen || pat == EntryOpen
    ensures forall i :: 0 <= i < |ps| ==> Avoids(AtomPieces(ps)[i], pat)
    decreases |ps|
  {
    var pieces := AtomPieces(ps);
    if |ps| == 1 {
      AtomPieceAvoids(ps[0], AtomTrailer());
    } else {
      AtomPieceAvoids(ps[0], "");
      assert AtomPiece(ps[0]) + "" == pieces[0];
      AtomPiecesAvoid(ps[1..], pat);
      assert pieces[1..] == AtomPieces(ps[1..]);
      forall i | 1 <= i < |ps| ensures Avoids(pieces[i], pat) {
        assert pieces[i] == AtomPieces(ps[1..])[i - 1];
      }
    }
  }

  lemma {:induction false} AtomPiecesParse(ps: seq<Post>, now: int, parseDate: DateParser)
    requires |ps| >= 1 && forall i :: 0 <= i < |ps| ==> AtomWellFormed(ps[i])
    ensures ParseItems(AtomPieces(ps), now, parseDate) == ExpectedAll(ps, now, parseDate)
    decreases |ps|
  {
    if |ps| == 1 {
      AtomLastPieceParses(ps, now, parseDate);
    } else {
      AtomPiecesParse(ps[1..], now, parseDate);
      AtomPieceThenRest(ps, now, parseDate);
    }
  }

  lemma AtomLastPieceParses(ps: seq<Post>, now: int, parseDate: DateParser)
    requires |ps| == 1 && AtomWellFormed(ps[0])
    ensures ParseItems(AtomPieces(ps), now, parseDate) == ExpectedAll(ps, now, parseDate)
  {
    var pieces := AtomPieces(ps);
    AtomPieceParses(ps[0], AtomTrailer(), now, parseDate);
    ParseItemsStep(pieces, now, parseDate, Expected(ps[0], now, parseDate));
    assert pieces[1..] == [];
  }

  lemma AtomInnerPieceParses(p: Post, now: int, parseDate: DateParser)
    requires AtomWellFormed(p)
    ensures ParseItem(AtomPiece(p), now, parseDate) == Some(Expected(p, now, parseDate))
  {
    AtomPieceParses(p, "", now, parseDate);
    assert AtomPiece(p) + "" == AtomPiece(p);
  }

  lemma AtomPieceThenRest(ps: seq<Post>, now: int, parseDate: DateParser)
    requires |ps| >= 2 && AtomWellFormed(ps[0])
    requires ParseItems(AtomPieces(ps[1..]), now, parseDate) == ExpectedAll(ps[1..], now, parseDate)
    ensures ParseItems(AtomPieces(ps), now, parseDate) == ExpectedAll(ps, now, parseDate)
  {
    var pieces := AtomPieces(ps);
    assert pieces == [AtomPiece(ps[0])] + AtomPieces(ps[1..]);
    AtomInnerPieceParses(ps[0], now, parseDate);
    ParseItemsStep(pieces, now, parseDate, Expected(ps[0], now, parseDate));
    assert pieces[1..] == AtomPieces(ps[1..]);
  }

  /** Extracting from a rendered Atom document gives back its posts, in order:
      with no `<item` in the text the extractor falls back to `<entry`, takes the
      link from `href`, and the time from `<updated>`. */
  lemma AtomRoundTrip(feedTitle: string, ps: seq<Post>, now: int, parseDate: DateParser)
    requires Plain(feedTitle)
    requires forall i :: 0 <= i < |ps| ==> AtomWellFormed(ps[i])
    ensures ExtractItems(AtomDocument(feedTitle, ps), now, parseDate) == ExpectedAll(ps, now, parseDate)
  {
    if |ps| == 0 {
      AtomEmptySegments(feedTitle);
    } else {
      AtomSegments(feedTitle, ps);
      AtomPiecesParse(ps, now, parseDate);
    }
  }

  /** A feed without entries has no segments. */
  lemma AtomEmptySegments(feedTitle: string)
    requires Plain(feedTitle)
    ensures Segments(AtomDocument(feedTitle, [])) == []
  {
    var header := AtomHeader(feedTitle);
    var doc := AtomDocument(feedTitle, []);
    AtomHeaderAvoids(feedTitle, ItemOpen);
    AtomHeaderAvoids(feedTitle, EntryOpen);
    TagAvoids(AtomTrailer(), ItemOpen, 1);
    TagAvoids(AtomTrailer(), EntryOpen, 1);
    ConcatAvoids(header, AtomTrailer(), ItemOpen);
    ConcatAvoids(header, AtomTrailer(), EntryOpen);
    assert doc == header + AtomTrailer();
    AvoidsExcludes(doc, ItemOpen);
    AvoidsExcludes(doc, EntryOpen);
  }

  /** The segments of a rendered Atom document are its entry pieces: it holds
      no `<item`, so the split falls back to `<entry`. */
  lemma AtomSegments(feedTitle: string, ps: seq<Post>)
    requires Plain(feedTitle) && |ps| > 0
    requires forall i :: 0 <= i < |ps| ==> AtomWellFormed(ps[i])
    ensures Segments(AtomDocument(feedTitle, ps)) == AtomPieces(ps)
  {
    AtomSplits(feedTitle, ps);
    EntrySegments(AtomDocument(feedTitle, ps), AtomHeader(feedTitle), AtomPieces(ps));
  }

  /** A rendered Atom document has no `<item`, and is its header and entry
      pieces joined by `<entry`, none of them holding `<entry` itself. */
  lemma AtomSplits(feedTitle: string, ps: seq<Post>)
    requires Plain(feedTitle) && |ps| > 0
    requires forall i :: 0 <= i < |ps| ==> AtomWellFormed(ps[i])
    ensures EntriesOnly(AtomDocument(feedTitle, ps), AtomHeader(feedTitle), AtomPieces(ps))
  {
    AtomPartsAvoid(feedTitle, ps, EntryOpen);
    AtomDocumentIsJoin(feedTitle, ps);
    AtomHasNoItem(feedTitle, ps);
    assert SplitsInto(AtomDocument(feedTitle, ps), AtomHeader(feedTitle), AtomPieces(ps), EntryOpen);
    SplitsIntoFreely(AtomDocument(feedTitle, ps), AtomHeader(feedTitle), AtomPieces(ps), EntryOpen);
  }

  lemma AtomDocumentIsJoin(feedTitle: string, ps: seq<Post>)
    requires |ps| > 0
    ensures AtomDocument(feedTitle, ps) == Join([AtomHeader(feedTitle)] + AtomPieces(ps), EntryOpen)
  {
    JoinAtomPieces(AtomHeader(feedTitle), ps);
  }

  /** Neither the header nor any piece of a rendered Atom document holds
      `<item` or `<entry`. */
  lemma AtomPartsAvoid(feedTitle: string, ps: seq<Post>, pat: string)
    requires Plain(feedTitle) && |ps| > 0 && (pat == ItemOpen || pat == EntryOpen)
    requires forall i :: 0 <= i < |ps| ==> AtomWellFormed(ps[i])
    ensures Avoids(AtomHeader(feedTitle), pat)
    ensures forall i :: 0 <= i < |ps| ==> Avoids(AtomPieces(ps)[i], pat)
  {
    AtomHeaderAvoids(feedTitle, pat);
    AtomPiecesAvoid(ps, pat);
  }

  /** A rendered Atom document holds no `<item`. */
  lemma AtomHasNoItem(feedTitle: string, ps: seq<Post>)
    requires Plain(feedTitle) && |ps| > 0
    requires forall i :: 0 <= i < |ps| ==> AtomWellFormed(ps[i])
    ensures !Contains(AtomDocument(feedTitle, ps), ItemOpen)
  {
    var parts := [AtomHeader(feedTitle)] + AtomPieces(ps);
    AtomPartsAvoid(feedTitle, ps, ItemOpen);
    TagAvoids(EntryOpen, ItemOpen, 1);
    AtomDocumentIsJoin(feedTitle, ps);
    JoinAvoids(parts, EntryOpen, ItemOpen);
    AvoidsExcludes(AtomDocument(feedTitle, ps), ItemOpen);
  }
}

=== FILE: scan.dfy ===
/**
 * Where the first occurrence of a markup delimiter falls. A feed's text is
 * markup tags interleaved with free text; these lemmas locate a delimiter
 * such as `<link>` or `</item>` by looking only at how each `<` in the text
 * before it continues.
 */
module Scan {
  import opened Options
  import opened Text

  /** `a` and `b` differ at some index both of them have. */
  predicate Diverge(a: string, b: string)
  {
    exists k :: 0 <= k < |a| && k < |b| && a[k] != b[k]
  }

  /** Every place in `p` where `pat` could start is ruled out by a character
      inside `p` itself, so nothing that follows `p` can complete a match. */
  predicate Avoids(p: string, pat: string)
    requires |pat| > 0
  {
    forall j {:trigger p[j..]} :: 0 <= j < |p| && p[j] == pat[0] ==> Diverge(p[j..], pat)
  }

  /** Text without the pattern's first character avoids it. */
  lemma FreeTextAvoids(p: string, pat: string)
    requires |pat| > 0 && pat[0] !in p
    ensures Avoids(p, pat)
  {
    forall j | 0 <= j < |p| ensures p[j] != pat[0] {
      assert p[j] in p;
    }
  }

  /** A tag that starts like `pat`, never repeats that character, and
      disagrees with `pat` at index `k` avoids `pat`. */
  lemma TagAvoids(tag: string, pat: string, k: nat)
    requires |pat| > 0 && |tag| > 0 && tag[0] == pat[0]
    requires pat[0] !in tag[1..]
    requires k < |tag| && k < |pat| && tag[k] != pat[k]
    ensures Avoids(tag, pat)
  {
    forall i | 1 <= i < |tag| ensures tag[i] != pat[0] {
      assert tag[i] == tag[1..][i - 1];
    }
    assert tag[0..][k] != pat[k];
  }

  /** Avoiding a pattern is preserved by concatenation. */
  lemma ConcatAvoids(a: string, b: string, pat: string)
    requires |pat| > 0 && Avoids(a, pat) && Avoids(b, pat)
    ensures Avoids(a + b, pat)
  {
    var s := a + b;
    forall j | 0 <= j < |s| && s[j] == pat[0]
      ensures Diverge(s[j..], pat)
    {
      if j < |a| {
        assert a[j] == pat[0];
        var k :| 0 <= k < |a[j..]| && k < |pat| && a[j..][k] != pat[k];
        assert s[j..][k] == a[j..][k];
      } else {
        assert b[j - |a|] == pat[0];
        var k :| 0 <= k < |b[j - |a|..]| && k < |pat| && b[j - |a|..][k] != pat[k];
        assert s[j..] == b[j - |a|..];
      }
    }
  }

  /** Text that avoids a pattern does not contain it. */
  lemma AvoidsExcludes(p: string, pat: string)
    requires |pat| > 0 && Avoids(p, pat)
    ensures !Contains(p, pat)
  {
    forall j | 0 <= j <= |p| ensures !OccursAt(p, pat, j) {
      if j + |pat| <= |p| {
        if p[j] == pat[0] {
          var k :| 0 <= k < |p[j..]| && k < |pat| && p[j..][k] != pat[k];
          assert p[j..j + |pat|][k] == p[j + k];
        } else {
          assert p[j..j + |pat|][0] == p[j];
        }
      }
    }
  }

  /** The first `pat` in `p + pat + x` is the one right after `p`. */
  lemma FirstAfterAvoiding(p: string, pat: string, x: string)
    requires |pat| > 0 && Avoids(p, pat)
    ensures FirstAt(p + pat + x, pat, |p|)
  {
    var s := p + pat + x;
    assert s[|p|..|p| + |pat|] == pat;
    forall j | 0 <= j < |p| ensures !OccursAt(s, pat, j) {
      if j + |pat| <= |s| {
        if p[j] == pat[0] {
          var k :| 0 <= k < |p[j..]| && k < |pat| && p[j..][k] != pat[k];
          assert s[j..j + |pat|][k] == s[j + k] == p[j + k];
        } else {
          assert s[j..j + |pat|][0] == s[j] == p[j];
        }
      }
    }
  }

  /** Text that avoids a separator may stand before it in a split. */
  lemma AvoidsEndsAtSep(p: string, sep: string)
    requires |sep| > 0 && Avoids(p, sep)
    ensures EndsAtSep(p, sep)
  {
    FirstAfterAvoiding(p, sep, "");
    assert p + sep + "" == p + sep;
  }

  /** Second way to place the first occurrence: the pattern's last character
      appears nowhere else in it and nowhere in `p` (used for `href=` and `"`). */
  lemma FirstAfterLastCharFree(p: string, pat: string, x: string)
    requires |pat| > 0
    requires pat[|pat| - 1] !in p && pat[|pat| - 1] !in pat[..|pat| - 1]
    ensures FirstAt(p + pat + x, pat, |p|)
  {
    var s := p + pat + x;
    var e := pat[|pat| - 1];
    assert s[|p|..|p| + |pat|] == pat;
    forall j | 0 <= j < |p| ensures !OccursAt(s, pat, j) {
      if j + |pat| <= |s| {
        var m := j + |pat| - 1;
        if m < |p| {
          assert s[m] == p[m] && p[m] in p;
        } else {
          assert s[m] == pat[m - |p|] == pat[..|pat| - 1][m - |p|];
        }
        assert s[j..j + |pat|][|pat| - 1] == s[m] != e;
      }
    }
  }

  /** Cutting `p + pat + x` at its first `pat`: what comes before is `p`, what
      comes after is `x`. */
  lemma CutAt(p: string, pat: string, x: string)
    requires |pat| > 0 && FirstAt(p + pat + x, pat, |p|)
    ensures Contains(p + pat + x, pat)
    ensures Before(p + pat + x, pat) == p
    ensures After(p + pat + x, pat) == x
  {
    var s := p + pat + x;
    assert OccursAt(s, pat, |p|);
    assert Find(s, pat) == Some(|p|);
    assert s[..|p|] == p;
    assert s[|p| + |pat|..] == x;
  }

  /** Cutting text that holds no `pat` leaves it whole. */
  lemma CutAbsent(p: string, pat: string)
    requires |pat| > 0 && Avoids(p, pat)
    ensures !Contains(p, pat)
    ensures Before(p, pat) == p
  {
    AvoidsExcludes(p, pat);
  }

  /** Joining pieces that avoid a pattern with a separator that avoids it too. */
  lemma {:induction false} JoinAvoids(parts: seq<string>, sep: string, pat: string)
    requires |pat| > 0 && Avoids(sep, pat)
    requires forall i :: 0 <= i < |parts| ==> Avoids(parts[i], pat)
    ensures Avoids(Join(parts, sep), pat)
    decreases |parts|
  {
    if |parts| == 0 {
    } else if |parts| > 1 {
      JoinAvoids(parts[1..], sep, pat);
      ConcatAvoids(parts[0], sep, pat);
      ConcatAvoids(parts[0] + sep, Join(parts[1..], sep), pat);
    }
  }

  /** `text` is `head` and `pieces` joined by `sep`, every part avoiding `sep`:
      no character in it can begin `sep`, whatever text follows the part. */
  predicate SplitsInto(text: string, head: string, pieces: seq<string>, sep: string)
    requires |sep| > 0
  {
    && |pieces| >= 1 && text == Join([head] + pieces, sep) && Avoids(head, sep)
    && forall i :: 0 <= i < |pieces| ==> Avoids(pieces[i], sep)
  }

  /** The first character of `sep` occurs nowhere else in it, as in `<item`
      and `<entry`: two occurrences of such a separator never overlap. */
  predicate Unbordered(sep: string)
  {
    |sep| > 0 && sep[0] !in sep[1..]
  }

  /** `text` is `head` and `pieces` joined by `sep`, with no part holding `sep`. */
  predicate SplitsFreely(text: string, head: string, pieces: seq<string>, sep: string)
  {
    && |pieces| >= 1 && text == Join([head] + pieces, sep) && !Contains(head, sep)
    && forall i :: 0 <= i < |pieces| ==> !Contains(pieces[i], sep)
  }

  /** Parts that avoid the separator certainly do not hold it. */
  lemma SplitsIntoFreely(text: string, head: string, pieces: seq<string>, sep: string)
    requires |sep| > 0 && SplitsInto(text, head, pieces, sep)
    ensures SplitsFreely(text, head, pieces, sep)
  {
    AvoidsExcludes(head, sep);
    forall i | 0 <= i < |pieces| ensures !Contains(pieces[i], sep) {
      AvoidsExcludes(pieces[i], sep);
    }
  }

  /** The first `pat` in `p + pat + x` is the one right after `p` when `p`
      does not hold an unbordered `pat`: an occurrence straddling `p` and the
      `pat` after it would put the pattern's first character at a later
      position of the pattern. */
  lemma FirstAfterFree(p: string, pat: string, x: string)
    requires Unbordered(pat) && !Contains(p, pat)
    ensures FirstAt(p + pat + x, pat, |p|)
  {
    var s := p + pat + x;
    assert s[|p|..|p| + |pat|] == pat;
    forall j | 0 <= j < |p| ensures !OccursAt(s, pat, j) {
      if j + |pat| <= |p| {
        assert s[j..j + |pat|] == p[j..j + |pat|];
        assert !OccursAt(p, pat, j);
      } else {
        var k := |p| - j;
        assert pat[k] == pat[1..][k - 1];
        assert s[j..j + |pat|][k] == s[|p|] == pat[0];
      }
    }
  }

  /** Text without an unbordered separator may stand before it in a split. */
  lemma AbsentEndsAtSep(p: string, sep: string)
    requires Unbordered(sep) && !Contains(p, sep)
    ensures EndsAtSep(p, sep)
  {
    FirstAfterFree(p, sep, "");
    assert p + sep + "" == p + sep;
  }

  /** Parts free of an unbordered separator, joined with it, split back into
      themselves. */
  lemma SplitOfFree(head: string, pieces: seq<string>, sep: string)
    requires Unbordered(sep) && |pieces| >= 1 && !Contains(head, sep)
    requires forall i :: 0 <= i < |pieces| ==> !Contains(pieces[i], sep)
    ensures Split(Join([head] + pieces, sep), sep) == [head] + pieces
  {
    FreePartsEndAtSep(head, pieces, sep);
    SplitJoin([head] + pieces, sep);
  }

  lemma FreePartsEndAtSep(head: string, pieces: seq<string>, sep: string)
    requires Unbordered(sep) && |pieces| >= 1 && !Contains(head, sep)
    requires forall i :: 0 <= i < |pieces| ==> !Contains(pieces[i], sep)
    ensures var parts := [head] + pieces;
            && |parts| >= 1
            && (forall i :: 0 <= i < |parts| - 1 ==> EndsAtSep(parts[i], sep))
            && !Contains(parts[|parts| - 1], sep)
  {
    var parts := [head] + pieces;
    AbsentEndsAtSep(head, sep);
    forall i | 1 <= i < |parts| - 1 ensures EndsAtSep(parts[i], sep) {
      AbsentEndsAtSep(pieces[i - 1], sep);
    }
  }
}

=== FILE: source.dfy ===
/**
 * The label stored with each article: a caller-supplied fallback when it is
 * non-empty, otherwise the link's host name with every `www.` removed.
 */
module SourceLabel {
  import opened Text

  /** What the URL parser reports for a link's host: a (lower-cased) host
      name, no host at all, or an exception. */
  datatype HostLookup = Host(name: string) | NoHost | Malformed

  /** The host-name parser is a parameter: it is a library call. */
  type HostParser = string -> HostLookup

  const Www := "www."

  /** The fallback wins when non-empty. Otherwise a host name loses every
      `www.`, a missing host gives the empty label, and only a parser
      exception gives `unknown`. */
  function NormalizeSource(fallback: string, host: HostLookup): (src: string)
    ensures fallback != "" ==> src == fallback
    ensures fallback == "" && host.Malformed? ==> src == "unknown"
    ensures fallback == "" && host.NoHost? ==> src == ""
    ensures fallback == "" && host.Host? ==> |src| <= |host.name|
  {
    match host
    case Malformed => if fallback != "" then fallback else "unknown"
    case NoHost => if fallback != "" then fallback else ""
    case Host(h) => if fallback != "" then fallback else RemoveAll(h, Www)
  }

  /** Without a fallback, the label of a host is the host with every `www.`
      cut out: the pieces between the occurrences, joined. */
  lemma HostLabelDropsEveryWww(h: string)
    ensures NormalizeSource("", Host(h)) == Join(Split(h, Www), "")
  {
    RemoveAllIsJoinOfSplit(h, Www);
  }

  /** A host with no `www.` in it is its own label. */
  lemma PlainHostIsLabel(h: string)
    requires !Contains(h, Www)
    ensures NormalizeSource("", Host(h)) == h
  {
    RemoveAllAbsent(h, Www);
  }

  /** A leading `www.` is dropped. */
  lemma LeadingWwwDropped(h: string)
    requires !Contains(h, Www)
    ensures NormalizeSource("", Host(Www + h)) == h
  {
    assert (Www + h)[..|Www|] == Www;
    assert (Www + h)[|Www|..] == h;
    RemoveAllAbsent(h, Www);
  }
}

=== FILE: store.dfy ===
/**
 * The `articles` table: an auto-increment id, and a `link` column declared
 * UNIQUE, so that inserting a row whose link is already stored fails and is
 * skipped. Rows are kept in insertion order.
 */
module Store {

  datatype Article = Article(id: nat, title: string, link: string, source: string, pubTs: int)

  /** The values of one INSERT, before the table assigns an id. */
  datatype Draft = Draft(title: string, link: string, source: string, pubTs: int)

  /** The rows, and the id the next inserted row receives. */
  datatype Table = Table(rows: seq<Article>, nextId: nat)

  /** The `UNIQUE` constraint: no two rows share a link. */
  ghost predicate UniqueLinks(rows: seq<Article>)
  {
    forall i, j :: 0 <= i < j < |rows| ==> rows[i].link != rows[j].link
  }

  /** The table's invariant: unique links, and ids that grow with insertion
      order and stay below the next id to hand out. */
  ghost predicate Valid(t: Table)
  {
    && UniqueLinks(t.rows)
    && 1 <= t.nextId
    && (forall i :: 0 <= i < |t.rows| ==> 1 <= t.rows[i].id < t.nextId)
    && (forall i, j :: 0 <= i < j < |t.rows| ==> t.rows[i].id < t.rows[j].id)
  }

  /** Some row has this link. */
  predicate HasLink(rows: seq<Article>, link: string)
  {
    exists i :: 0 <= i < |rows| && rows[i].link == link
  }

  ghost function Links(rows: seq<Article>): set<string>
  {
    set i | 0 <= i < |rows| :: rows[i].link
  }

  ghost function DraftLinks(ds: seq<Draft>): set<string>
  {
    set i | 0 <= i < |ds| :: ds[i].link
  }

  /** A stored row carries exactly a draft's values. */
  predicate Stores(a: Article, d: Draft)
  {
    a.title == d.title && a.link == d.link && a.source == d.source && a.pubTs == d.pubTs
  }

  /** Index `i` holds the first draft with this link. */
  predicate FirstWithLink(ds: seq<Draft>, i: int, link: string)
  {
    0 <= i < |ds| && ds[i].link == link && forall j :: 0 <= j < i ==> ds[j].link != link
  }

  datatype Outcome = Outcome(table: Table, inserted: bool)

  /** `INSERT INTO articles ...`: a new row with the next id when the link is
      new; otherwise the constraint fails and the table is untouched. */
  function Insert(t: Table, d: Draft): (r: Outcome)
    ensures r.inserted <==> !HasLink(t.rows, d.link)
    ensures !r.inserted ==> r.table == t
    ensures r.inserted ==> r.table.rows == t.rows + [Article(t.nextId, d.title, d.link, d.source, d.pubTs)]
    ensures Valid(t) ==> Valid(r.table)
  {
    if HasLink(t.rows, d.link) then Outcome(t, false)
    else Outcome(Table(t.rows + [Article(t.nextId, d.title, d.link, d.source, d.pubTs)], t.nextId + 1), true)
  }

  datatype Batch = Batch(table: Table, added: nat)

  /** Inserting drafts one after another, counting the rows actually added. */
  function InsertAll(t: Table, ds: seq<Draft>): (r: Batch)
    ensures Valid(t) ==> Valid(r.table)
    ensures t.rows <= r.table.rows
    ensures r.added == |r.table.rows| - |t.rows|
    ensures Links(r.table.rows) == Links(t.rows) + DraftLinks(ds)
    decreases |ds|
  {
    if |ds| == 0 then Batch(t, 0)
    else
      var first := Insert(t, ds[0]);
      var rest := InsertAll(first.table, ds[1..]);
      LinksOfInsert(t, ds[0]);
      DraftLinksCons(ds);
      Batch(rest.table, rest.added + (if first.inserted then 1 else 0))
  }

  lemma LinksOfInsert(t: Table, d: Draft)
    ensures Links(Insert(t, d).table.rows) == Links(t.rows) + {d.link}
  {
    var r := Insert(t, d);
    if r.inserted {
      var rows := r.table.rows;
      assert rows[|t.rows|].link == d.link;
      forall l | l in Links(rows) ensures l in Links(t.rows) + {d.link} {
        var i :| 0 <= i < |rows| && rows[i].link == l;
        if i < |t.rows| { assert rows[i] == t.rows[i]; }
      }
      forall l | l in Links(t.rows) ensures l in Links(rows) {
        var i :| 0 <= i < |t.rows| && t.rows[i].link == l;
        assert rows[i] == t.rows[i];
      }
    } else {
      var i :| 0 <= i < |t.rows| && t.rows[i].link == d.link;
    }
  }

  lemma DraftLinksCons(ds: seq<Draft>)
    requires |ds| > 0
    ensures DraftLinks(ds) == {ds[0].link} + DraftLinks(ds[1..])
  {
    forall l | l in DraftLinks(ds) ensures l in {ds[0].link} + DraftLinks(ds[1..]) {
      var i :| 0 <= i < |ds| && ds[i].link == l;
      if i > 0 { assert ds[1..][i - 1] == ds[i]; }
    }
    forall l | l in DraftLinks(ds[1..]) ensures l in DraftLinks(ds) {
      var i :| 0 <= i < |ds[1..]| && ds[1..][i].link == l;
      assert ds[i + 1] == ds[1..][i];
    }
  }

  /** With unique links there are as many distinct links as rows. */
  lemma {:induction false} UniqueLinksCount(rows: seq<Article>)
    requires UniqueLinks(rows)
    ensures |Links(rows)| == |rows|
    decreases |rows|
  {
    if |rows| > 0 {
      var init := rows[..|rows| - 1];
      var last := rows[|rows| - 1];
      UniqueLinksCount(init);
      assert Links(rows) == Links(init) + {last.link} by {
        forall l | l in Links(rows) ensures l in Links(init) + {last.link} {
          var i :| 0 <= i < |rows| && rows[i].link == l;
          if i < |rows| - 1 { assert init[i] == rows[i]; }
        }
      }
      assert last.link !in Links(init);
    }
  }

  /** A run adds exactly one row per distinct link it brings that the table did
      not already hold. */
  lemma InsertAllCountsNewLinks(t: Table, ds: seq<Draft>)
    requires Valid(t)
    ensures InsertAll(t, ds).added == |DraftLinks(ds) - Links(t.rows)|
  {
    var r := InsertAll(t, ds);
    UniqueLinksCount(t.rows);
    UniqueLinksCount(r.table.rows);
    UnionSize(Links(t.rows), DraftLinks(ds));
  }

  lemma UnionSize(a: set<string>, b: set<string>)
    ensures |a + b| == |a| + |b - a|
  {
    assert a + b == a + (b - a);
    assert a !! (b - a);
  }

  /** Drafts with the same links, position by position, have the same link set. */
  lemma SameLinks(d1: seq<Draft>, d2: seq<Draft>)
    requires |d1| == |d2| && forall i :: 0 <= i < |d1| ==> d1[i].link == d2[i].link
    ensures DraftLinks(d1) == DraftLinks(d2)
  {
    forall l | l in DraftLinks(d1) ensures l in DraftLinks(d2) {
      var i :| 0 <= i < |d1| && d1[i].link == l;
      assert d2[i].link == l;
    }
    forall l | l in DraftLinks(d2) ensures l in DraftLinks(d1) {
      var i :| 0 <= i < |d2| && d2[i].link == l;
      assert d1[i].link == l;
    }
  }

  /** Rows past the old end have links the old table did not hold. */
  lemma NewRowsHaveNewLinks(t: Table, ds: seq<Draft>)
    requires Valid(t)
    ensures forall k :: |t.rows| <= k < |InsertAll(t, ds).table.rows| ==>
              !HasLink(t.rows, InsertAll(t, ds).table.rows[k].link)
  {
    var rows := InsertAll(t, ds).table.rows;
    forall k | |t.rows| <= k < |rows| ensures !HasLink(t.rows, rows[k].link) {
      forall i | 0 <= i < |t.rows| ensures t.rows[i].link != rows[k].link {
        assert rows[i] == t.rows[i];
      }
    }
  }

  /** The row carries the values of the first draft with its link. */
  ghost predicate FromFirstDraft(ds: seq<Draft>, a: Article)
  {
    exists i :: FirstWithLink(ds, i, a.link) && Stores(a, ds[i])
  }

  /** Putting a draft with another link in front keeps a row first-written. */
  lemma FromFirstDraftCons(ds: seq<Draft>, a: Article)
    requires |ds| > 0
    requires FromFirstDraft(ds[1..], a)
    requires ds[0].link != a.link
    ensures FromFirstDraft(ds, a)
  {
    var i :| FirstWithLink(ds[1..], i, a.link) && Stores(a, ds[1..][i]);
    assert FirstWithLink(ds, i + 1, a.link);
  }

  /** First writer wins: every row a run adds carries the values of the FIRST
      draft with its link; later drafts with the same link change nothing. */
  lemma {:induction false} InsertAllFirstWins(t: Table, ds: seq<Draft>)
    requires Valid(t)
    ensures forall k :: |t.rows| <= k < |InsertAll(t, ds).table.rows| ==>
              FromFirstDraft(ds, InsertAll(t, ds).table.rows[k])
    decreases |ds|
  {
    if |ds| > 0 {
      var first := Insert(t, ds[0]);
      var rest := InsertAll(first.table, ds[1..]);
      var rows := rest.table.rows;
      assert InsertAll(t, ds).table.rows == rows;
      InsertAllFirstWins(first.table, ds[1..]);
      NewRowsHaveNewLinks(first.table, ds[1..]);
      assert HasLink(first.table.rows, ds[0].link) by {
        if first.inserted {
          assert first.table.rows[|t.rows|].link == ds[0].link;
        }
      }
      forall k | |t.rows| <= k < |rows| ensures FromFirstDraft(ds, rows[k]) {
        if k < |first.table.rows| {
          assert rows[k] == first.table.rows[k];
          assert FirstWithLink(ds, 0, rows[k].link) && Stores(rows[k], ds[0]);
        } else {
          assert ds[0].link != rows[k].link;
          FromFirstDraftCons(ds, rows[k]);
        }
      }
    }
  }

  /** Running two batches in a row is one batch of both. */
  lemma {:induction false} InsertAllAppend(t: Table, a: seq<Draft>, b: seq<Draft>)
    ensures InsertAll(t, a + b)
            == Batch(InsertAll(InsertAll(t, a).table, b).table,
                     InsertAll(t, a).added + InsertAll(InsertAll(t, a).table, b).added)
    decreases |a|
  {
    if |a| == 0 {
      assert a + b == b;
    } else {
      assert (a + b)[0] == a[0];
      assert (a + b)[1..] == a[1..] + b;
      InsertAllAppend(Insert(t, a[0]).table, a[1..], b);
    }
  }

  /** Drafts whose links are all stored already change nothing and add nothing. */
  lemma {:induction false} InsertAllKnown(t: Table, ds: seq<Draft>)
    requires DraftLinks(ds) <= Links(t.rows)
    ensures InsertAll(t, ds) == Batch(t, 0)
    decreases |ds|
  {
    if |ds| > 0 {
      DraftLinksCons(ds);
      var i :| 0 <= i < |t.rows| && t.rows[i].link == ds[0].link;
      assert HasLink(t.rows, ds[0].link);
      InsertAllKnown(t, ds[1..]);
    }
  }

  /** Inserting the same drafts again is a no-op. */
  lemma InsertAllIdempotent(t: Table, ds: seq<Draft>)
    ensures InsertAll(InsertAll(t, ds).table, ds) == Batch(InsertAll(t, ds).table, 0)
  {
    InsertAllKnown(InsertAll(t, ds).table, ds);
  }
}

=== FILE: text.dfy ===
/**
 * The handful of Python `str` operations the feed extractor and the query
 * handler are built from: `in`, `split(sep, 1)`, `split(sep)`, `strip()` and
 * `replace(pat, "")`, each written over `seq<char>` and characterised by
 * what it computes rather than by how.
 */
module Text {
  import opened Options

  /** `pat` occurs in `s` starting at index `i`. */
  predicate OccursAt(s: string, pat: string, i: int)
  {
    0 <= i && i + |pat| <= |s| && s[i..i + |pat|] == pat
  }

  /** Python's `pat in s`. */
  predicate Contains(s: string, pat: string)
  {
    exists i :: 0 <= i <= |s| && OccursAt(s, pat, i)
  }

  /** `i` is the leftmost occurrence of `pat` in `s` (what `str.find` returns). */
  predicate FirstAt(s: string, pat: string, i: int)
  {
    OccursAt(s, pat, i) && forall j :: 0 <= j < i ==> !OccursAt(s, pat, j)
  }

  /** Leftmost occurrence of `pat` in `s` at or after `k`. */
  function FindFrom(s: string, pat: string, k: nat): (r: Option<nat>)
    requires k <= |s|
    ensures r.Some? ==> k <= r.value && OccursAt(s, pat, r.value)
    ensures r.Some? ==> forall j :: k <= j < r.value ==> !OccursAt(s, pat, j)
    ensures r.None? ==> forall j :: k <= j ==> !OccursAt(s, pat, j)
    decreases |s| - k
  {
    if k + |pat| > |s| then None
    else if s[k..k + |pat|] == pat then Some(k)
    else FindFrom(s, pat, k + 1)
  }

  /** Leftmost occurrence of `pat` in `s`, if any. */
  function Find(s: string, pat: string): (r: Option<nat>)
    ensures r.Some? <==> Contains(s, pat)
    ensures r.Some? ==> FirstAt(s, pat, r.value)
  {
    FindFrom(s, pat, 0)
  }

  /** `s.split(pat, 1)[0]`: everything before the first `pat`, or all of `s`. */
  function Before(s: string, pat: string): (r: string)
    ensures Contains(s, pat) ==> FirstAt(s, pat, |r|) && r == s[..|r|]
    ensures !Contains(s, pat) ==> r == s
  {
    match Find(s, pat)
    case None => s
    case Some(i) => s[..i]
  }

  /** `s.split(pat, 1)[1]`: everything after the first `pat`. */
  function After(s: string, pat: string): (r: string)
    requires Contains(s, pat)
    ensures s == Before(s, pat) + pat + r
  {
    var i := Find(s, pat).value;
    assert s == s[..i] + pat + s[i + |pat|..];
    s[i + |pat|..]
  }

  /** `sep.join(parts)`. */
  function Join(parts: seq<string>, sep: string): string
  {
    if |parts| == 0 then ""
    else if |parts| == 1 then parts[0]
    else parts[0] + sep + Join(parts[1..], sep)
  }

  /** Joining a leading piece onto at least one more. */
  lemma JoinCons(head: string, rest: seq<string>, sep: string)
    requires |rest| >= 1
    ensures Join([head] + rest, sep) == head + sep + Join(rest, sep)
  {
    assert ([head] + rest)[1..] == rest;
  }

  /** `piece` may stand before a separator in a split: its only occurrence of `sep`
      in `piece + sep` is the separator itself. */
  predicate EndsAtSep(piece: string, sep: string)
  {
    FirstAt(piece + sep, sep, |piece|)
  }

  /** `parts` cut `s` at every leftmost, non-overlapping `sep`: joined back
      they give `s`, each but the last ends just before a separator, and the
      last holds none. */
  predicate IsSplit(s: string, sep: string, parts: seq<string>)
    requires |sep| > 0
  {
    && |parts| >= 1 && Join(parts, sep) == s
    && (forall i :: 0 <= i < |parts| - 1 ==> EndsAtSep(parts[i], sep))
    && !Contains(parts[|parts| - 1], sep)
  }

  /** Python's `s.split(sep)` for a non-empty separator: cut at every leftmost,
      non-overlapping occurrence. */
  function Split(s: string, sep: string): (parts: seq<string>)
    requires |sep| > 0
    ensures IsSplit(s, sep, parts)
    ensures |parts| == 1 <==> !Contains(s, sep)
    decreases |s|
  {
    match Find(s, sep)
    case None => [s]
    case Some(i) =>
      var rest := Split(s[i + |sep|..], sep);
      SplitCons(s, sep, i, rest);
      [s[..i]] + rest
  }

  /** Cutting at the first separator and splitting the rest yields a split of
      the whole. */
  lemma SplitCons(s: string, sep: string, i: nat, rest: seq<string>)
    requires |sep| > 0 && FirstAt(s, sep, i)
    requires IsSplit(s[i + |sep|..], sep, rest)
    ensures |[s[..i]] + rest| >= 2 && Contains(s, sep) && IsSplit(s, sep, [s[..i]] + rest)
  {
    var parts := [s[..i]] + rest;
    SplitHead(s, sep, i);
    JoinCons(s[..i], rest, sep);
    forall k | 1 <= k < |parts| - 1 ensures EndsAtSep(parts[k], sep) {
      assert parts[k] == rest[k - 1];
    }
    assert parts[|parts| - 1] == rest[|rest| - 1];
  }

  /** The piece before the first separator ends at that separator. */
  lemma SplitHead(s: string, sep: string, i: nat)
    requires FirstAt(s, sep, i)
    ensures EndsAtSep(s[..i], sep)
    ensures s == s[..i] + sep + s[i + |sep|..]
  {
    PrefixKeepsOccurrences(s, sep, i + |sep|);
    assert s[..i] + sep == s[..i + |sep|];
  }

  /** Occurrences that fit inside a prefix are the same in the prefix and in the whole. */
  lemma PrefixKeepsOccurrences(s: string, pat: string, n: nat)
    requires n <= |s|
    ensures forall j :: 0 <= j && j + |pat| <= n ==> (OccursAt(s[..n], pat, j) <==> OccursAt(s, pat, j))
  {
    forall j | 0 <= j && j + |pat| <= n
      ensures OccursAt(s[..n], pat, j) <==> OccursAt(s, pat, j)
    {
      assert s[..n][j..j + |pat|] == s[j..j + |pat|];
    }
  }

  /** Occurrences in a suffix are the occurrences in the whole, shifted. */
  lemma SuffixShiftsOccurrences(s: string, pat: string, n: nat)
    requires n <= |s|
    ensures forall j :: 0 <= j ==> (OccursAt(s[n..], pat, j) <==> OccursAt(s, pat, j + n))
  {
    forall j | 0 <= j
      ensures OccursAt(s[n..], pat, j) <==> OccursAt(s, pat, j + n)
    {
      if j + |pat| <= |s| - n {
        assert s[n..][j..j + |pat|] == s[j + n..j + n + |pat|];
      }
    }
  }

  /** A string whose first occurrence of `sep` starts right after `piece` splits off `piece`. */
  lemma FindAfterPiece(piece: string, sep: string, rest: string)
    requires |sep| > 0 && EndsAtSep(piece, sep)
    ensures Find(piece + sep + rest, sep) == Some(|piece|)
  {
    var s := piece + sep + rest;
    assert (piece + sep + rest)[..|piece| + |sep|] == piece + sep;
    PrefixKeepsOccurrences(s, sep, |piece| + |sep|);
    assert FirstAt(s, sep, |piece|);
  }

  /** Split inverts Join: the pieces a split produces are the only pieces whose join
      splits back into them. */
  lemma {:induction false} SplitJoin(parts: seq<string>, sep: string)
    requires |sep| > 0 && |parts| >= 1
    requires forall i :: 0 <= i < |parts| - 1 ==> EndsAtSep(parts[i], sep)
    requires !Contains(parts[|parts| - 1], sep)
    ensures Split(Join(parts, sep), sep) == parts
    decreases |parts|
  {
    if |parts| == 1 {
    } else {
      var rest := Join(parts[1..], sep);
      FindAfterPiece(parts[0], sep, rest);
      assert (parts[0] + sep + rest)[|parts[0]| + |sep|..] == rest;
      assert (parts[0] + sep + rest)[..|parts[0]|] == parts[0];
      SplitJoin(parts[1..], sep);
      assert parts == [parts[0]] + parts[1..];
    }
  }

  /** Python's `str.isspace` for one character: ASCII controls 9-13 and 28-31,
      the space, and the Unicode space separators and line/paragraph separators. */
  predicate IsSpace(c: char)
  {
    var n := c as int;
    (9 <= n <= 13) || (28 <= n <= 32) || n == 0x85 || n == 0xA0 || n == 0x1680
    || (0x2000 <= n <= 0x200A) || n == 0x2028 || n == 0x2029 || n == 0x202F
    || n == 0x205F || n == 0x3000
  }

  predicate AllSpace(s: string)
  {
    forall i :: 0 <= i < |s| ==> IsSpace(s[i])
  }

  /** Neither end of `s` is whitespace. */
  predicate IsStripped(s: string)
  {
    |s| == 0 || (!IsSpace(s[0]) && !IsSpace(s[|s| - 1]))
  }

  /** How many whitespace characters `s` starts with. */
  function LeadingSpace(s: string): (n: nat)
    ensures n <= |s| && AllSpace(s[..n])
    ensures n == |s| || !IsSpace(s[n])
    decreases |s|
  {
    if |s| > 0 && IsSpace(s[0]) then
      var m := LeadingSpace(s[1..]);
      assert s[..1 + m] == [s[0]] + s[1..][..m];
      1 + m
    else 0
  }

  /** How many whitespace characters `s` ends with. */
  function TrailingSpace(s: string): (n: nat)
    ensures n <= |s| && AllSpace(s[|s| - n..])
    ensures n == |s| || !IsSpace(s[|s| - n - 1])
    decreases |s|
  {
    if |s| > 0 && IsSpace(s[|s| - 1]) then
      var m := TrailingSpace(s[..|s| - 1]);
      TrailingStep(s, m);
      1 + m
    else 0
  }

  /** A whitespace run at the end of `s` minus its last character, followed by
      that character being whitespace, is a run one longer at the end of `s`. */
  lemma TrailingStep(s: string, m: nat)
    requires |s| > 0 && IsSpace(s[|s| - 1]) && m <= |s| - 1
    requires AllSpace(s[..|s| - 1][|s| - 1 - m..])
    requires m == |s| - 1 || !IsSpace(s[..|s| - 1][|s| - 1 - m - 1])
    ensures AllSpace(s[|s| - (1 + m)..])
    ensures 1 + m == |s| || !IsSpace(s[|s| - (1 + m) - 1])
  {
    assert s[|s| - 1 - m..] == s[..|s| - 1][|s| - 1 - m..] + [s[|s| - 1]];
  }

  /** `s.strip()`: leading and trailing whitespace removed. */
  function Strip(s: string): (r: string)
    ensures IsStripped(r)
    ensures |r| <= |s|
  {
    var t := s[LeadingSpace(s)..];
    t[..|t| - TrailingSpace(t)]
  }

  /** What `strip` removes is whitespace: `s` is the leading whitespace, then
      the result, then whitespace. */
  lemma StripShape(s: string)
    ensures var a := LeadingSpace(s);
            var r := Strip(s);
            && a + |r| <= |s| && AllSpace(s[..a]) && s[a..a + |r|] == r && AllSpace(s[a + |r|..])
  {
    StripIsMiddle(s);
    StripTailIsSpace(s);
  }

  lemma StripIsMiddle(s: string)
    ensures LeadingSpace(s) + |Strip(s)| <= |s|
    ensures s[LeadingSpace(s)..LeadingSpace(s) + |Strip(s)|] == Strip(s)
  {
    var a := LeadingSpace(s);
    var t := s[a..];
    SuffixParts(s, a, |t| - TrailingSpace(t));
  }

  lemma StripTailIsSpace(s: string)
    ensures LeadingSpace(s) + |Strip(s)| <= |s|
    ensures AllSpace(s[LeadingSpace(s) + |Strip(s)|..])
  {
    var a := LeadingSpace(s);
    var t := s[a..];
    SuffixParts(s, a, |t| - TrailingSpace(t));
  }

  lemma SuffixParts(s: string, a: nat, m: nat)
    requires a + m <= |s|
    ensures s[a..][..m] == s[a..a + m] && s[a..][m..] == s[a + m..]
  {
  }

  /** Stripping leaves already-stripped text alone, so `strip` is idempotent. */
  lemma StripOfStripped(s: string)
    requires IsStripped(s)
    ensures Strip(s) == s
  {
  }

  lemma StripIdempotent(s: string)
    ensures Strip(Strip(s)) == Strip(s)
  {
    StripOfStripped(Strip(s));
  }

  /** Python's `s.replace(pat, "")`: a left-to-right scan that deletes each
      occurrence of `pat` and resumes after it. */
  function RemoveAll(s: string, pat: string): (r: string)
    requires |pat| > 0
    ensures |r| <= |s|
    decreases |s|
  {
    if |s| < |pat| then s
    else if s[..|pat|] == pat then RemoveAll(s[|pat|..], pat)
    else [s[0]] + RemoveAll(s[1..], pat)
  }

  /** Text without `pat` is left as it is. */
  lemma {:induction false} RemoveAllAbsent(s: string, pat: string)
    requires |pat| > 0 && !Contains(s, pat)
    ensures RemoveAll(s, pat) == s
    decreases |s|
  {
    if |s| >= |pat| {
      assert !OccursAt(s, pat, 0);
      SuffixShiftsOccurrences(s, pat, 1);
      RemoveAllAbsent(s[1..], pat);
      assert s == [s[0]] + s[1..];
    }
  }

  /** Up to the first occurrence the scan copies, then it drops the occurrence. */
  lemma RemoveAllAtFirst(s: string, pat: string, i: nat)
    requires |pat| > 0 && FirstAt(s, pat, i)
    ensures RemoveAll(s, pat) == s[..i] + RemoveAll(s[i + |pat|..], pat)
  {
    RemoveAllCopiesPrefix(s, pat, i);
    RemoveAllAtStart(s[i..], pat);
    assert s[i..][|pat|..] == s[i + |pat|..];
  }

  /** Before the first occurrence the scan copies the text as it is. */
  lemma {:induction false} RemoveAllCopiesPrefix(s: string, pat: string, i: nat)
    requires |pat| > 0 && i + |pat| <= |s|
    requires forall j :: 0 <= j < i ==> !OccursAt(s, pat, j)
    ensures RemoveAll(s, pat) == s[..i] + RemoveAll(s[i..], pat)
    decreases i
  {
    if i == 0 {
      assert s[..0] + RemoveAll(s[0..], pat) == RemoveAll(s, pat);
    } else {
      assert !OccursAt(s, pat, 0);
      SuffixShiftsOccurrences(s, pat, 1);
      RemoveAllCopiesPrefix(s[1..], pat, i - 1);
      RemoveAllCopies(s, pat);
      assert s[1..][i - 1..] == s[i..];
      ConsRegroup(s, i, RemoveAll(s, pat), RemoveAll(s[1..], pat), RemoveAll(s[i..], pat));
    }
  }

  /** An occurrence at the start is dropped. */
  lemma RemoveAllAtStart(s: string, pat: string)
    requires |pat| > 0 && OccursAt(s, pat, 0)
    ensures RemoveAll(s, pat) == RemoveAll(s[|pat|..], pat)
  {
    assert s[..|pat|] == pat;
  }

  lemma ConsRegroup(s: string, i: nat, r: string, rt: string, x: string)
    requires 0 < i <= |s|
    requires r == [s[0]] + rt && rt == s[1..][..i - 1] + x
    ensures r == s[..i] + x
  {
    assert s[..i] == [s[0]] + s[1..][..i - 1];
  }

  /** Where `pat` does not start, the scan copies one character. */
  lemma RemoveAllCopies(s: string, pat: string)
    requires |pat| > 0 && |s| >= |pat| && !OccursAt(s, pat, 0)
    ensures RemoveAll(s, pat) == [s[0]] + RemoveAll(s[1..], pat)
  {
    assert s[..|pat|] != pat;
  }

  /** The scanning replace agrees with its reference definition: joining the
      pieces of `s.split(pat)` with nothing in between. */
  lemma {:induction false} RemoveAllIsJoinOfSplit(s: string, pat: string)
    requires |pat| > 0
    ensures RemoveAll(s, pat) == Join(Split(s, pat), "")
    decreases |s|
  {
    match Find(s, pat)
    case None =>
      RemoveAllAbsent(s, pat);
    case Some(i) =>
      var t := s[i + |pat|..];
      RemoveAllAtFirst(s, pat, i);
      RemoveAllIsJoinOfSplit(t, pat);
      var rest := Split(t, pat);
      assert Split(s, pat) == [s[..i]] + rest;
      JoinCons(s[..i], rest, "");
      assert s[..i] + "" == s[..i];
  }
}
